=== FILE: README.md ===
# uber_slack command interpreter, in Dafny

This project models the command interpreter behind the `/uber` Slack slash command,
`UberCommand` in `app/controllers/concerns/uber_command.rb`. `run` splits the typed text
into a command word and an argument, lower-cases both, refuses any word outside
`VALID_COMMANDS`, and sends the argument to the handler of that name:

- `help` answers with the usage text.
- `products` geocodes an address and lists the products on offer.
- `get_eta` geocodes an address and reports the pickup-time range in whole minutes.
- `ride` and `accept` form a two-step surge-pricing confirmation.

`ride` checks the "origin to destination" format, plans the trip, and records it. Then,
depending on the surge multiplier, it does one of three things:
- above 2.0, it asks the user to type `accept <multiplier>`;
- above 1.0, it asks for a bare `accept`;
- otherwise it books the ride at once.

`accept` works on the user's most recent record:
- from 2.0 up, it insists on the multiplier typed back;
- when the record is more than five minutes old, it runs `ride` again from the stored coordinates;
- otherwise it books with the stored surge confirmation id.

The model is functional. Each outside service becomes a function-valued field of
`Api.Services`: the geocoder, the default-product lookup, the time and product lists, the
ride estimate and the booking request. A call that can raise answers `Api.Call`
(`Returned(value)` or `Threw`). The ride table is a sequence of `Rides.RideRecord` in
creation order. `ride`, `accept` and `run` return an `Rides.Outcome`: the reply, the table
afterwards, and every booking request sent, so "books nothing" is part of a contract. A
surge multiplier is a natural number of hundredths (1.25 is 125).

The modules, in dependency order:

| module | file | content |
|---|---|---|
| `Wrappers` | wrappers.dfy | `Option` |
| `RubyText` | text.dfy | the Ruby string operations the interpreter uses: `blank?`, `downcase`, `split(" ", 2)`, `include?`, `split("to")`, `strip`, lines |
| `Numerals` | numerals.dfy | `Integer#to_s`, `Float#to_s` for a multiplier in hundredths, `String#to_f` |
| `Api` | api.dfy | what the services answer, and the shapes of a reply |
| `Messages` | messages.dfy | the fixed messages and the formatters |
| `Eta` | eta.dfy | the minute arithmetic of `get_eta` |
| `Rides` | rides.dfy | `ride`, `accept` and the ride table |
| `Workflow` | workflow.dfy | properties of a `ride` followed by an `accept` |
| `Handlers` | handlers.dfy | `help`, `products`, `get_eta` |
| `Command` | command.dfy | `run`, `invalid_command?`, `VALID_COMMANDS` |

A stale `accept` does not pass the stored coordinates to `ride` directly (see the TODO at
`uber_command.rb:214`). It builds `"lat, lng to lat, lng"` and calls `ride`, which splits,
strips and geocodes that text again. `Rides.Accept` does the same.

## Model

All source paths are `app/controllers/concerns/uber_command.rb`.

| member | source | states |
|---|---|---|
| Command.Lookup | app/controllers/concerns/uber_command.rb:5 | a word names a command exactly when it is one of the five words of `VALID_COMMANDS`, and the command found carries that word as its name |
| Command.LookupName | app/controllers/concerns/uber_command.rb:375-377 | every command's name passes `invalid_command?` and leads back to that command |
| Command.Parse | app/controllers/concerns/uber_command.rb:41-48 | blank input is unknown; otherwise the first word after any leading whitespace, lower-cased, decides the command (unknown exactly when it is not in `VALID_COMMANDS`), and the argument is the lower-cased rest after the first whitespace run, absent when nothing follows the word |
| RubyText.Blank | app/controllers/concerns/uber_command.rb:41 | text is blank exactly when every character is ASCII whitespace, the empty text included |
| Command.Invoke | app/controllers/concerns/uber_command.rb:50 | `help`, `products` and `get_eta` leave the ride table unchanged and send no booking; every handler keeps the table's record invariant |
| Command.Run | app/controllers/concerns/uber_command.rb:40-53 | an unknown command gets exactly `UNKNOWN_COMMAND_ERROR`, with the table unchanged and nothing sent; a known one is the outcome of the handler of its name; the record invariant is kept |
| Command.UnknownWordRejected | app/controllers/concerns/uber_command.rb:42-48 | a word outside the command set, in any letter case, with or without an argument and after any leading whitespace, is refused without reaching a handler |
| Command.CommandWordDispatched | app/controllers/concerns/uber_command.rb:42-50 | a command word in any letter case, followed by whitespace and a rest, runs its handler on the lower-cased rest; with nothing after it the handler gets no argument |
| Command.ProductsWithTrailingSpace | app/controllers/concerns/uber_command.rb:42-46 | "products " passes `products` an empty argument, which is answered with `PRODUCTS_REQUEST_FORMAT_ERROR` |
| Command.RideWithoutArgument | app/controllers/concerns/uber_command.rb:119 | "ride" alone is answered with `RIDE_REQUEST_FORMAT_ERROR` (with the corrected first check of `ride`) and records nothing |
| Command.FaresUnreachable | app/controllers/concerns/uber_command.rb:266 | the `fares` handler cannot be reached: "fares ..." is an unknown command |
| Command.RideBooksWithoutSurge | app/controllers/concerns/uber_command.rb:166-180 | with a product lookup that answers, a multiplier of 1.0 and a booking without errors, `ride` answers with the booking confirmation for the provider's ETA |
| Command.SpacedToWellFormed | app/controllers/concerns/uber_command.rb:46 | an argument holding " to ", once lower-cased, still passes `ride`'s format check |
| Command.RideCommandWithoutSurge | app/controllers/concerns/uber_command.rb:40-53 | "ride <origin> to <destination>" with a product lookup that answers, no surge and an accepted booking is answered with the confirmation, whatever the geocoder answers |
| Command.RideWithoutSurgeExample | app/controllers/concerns/uber_command.rb:343-350 | "ride 1 Market St to 1 Mission St" with a booking ETA of 125 seconds is confirmed as arriving "in 2 minutes" |
| Command.AcceptCommandArgument | app/controllers/concerns/uber_command.rb:46 | an `accept` argument with no capitals reaches `accept` exactly as typed |
| Command.EchoedAcceptPassesCheck | app/controllers/concerns/uber_command.rb:196-199 | typing back, through `run`, the multiplier text a surge reply showed reaches `accept` unchanged and passes its multiplier check |
| Handlers.Help | app/controllers/concerns/uber_command.rb:114-116 | `help` answers `HELP_TEXT` whatever the argument |
| Handlers.Products | app/controllers/concerns/uber_command.rb:315-326 | a missing or blank address gets `PRODUCTS_REQUEST_FORMAT_ERROR`; an address not found gets `LOCATION_NOT_FOUND_ERROR`; otherwise the provider's answer is formatted, and a raising call raises |
| Handlers.GetEta | app/controllers/concerns/uber_command.rb:59-82 | a missing or unknown address gets `LOCATION_NOT_FOUND_ERROR`; status 500 gets the apology; an empty estimate list raises on `nil['estimate']`; otherwise the minute range is reported |
| Eta.MinMax | app/controllers/concerns/uber_command.rb:77 | both ends come from the list, and every element lies between them |
| Eta.EtaRange | app/controllers/concerns/uber_command.rb:77-80 | the low end is below the high end; every estimate's floor minute lies in the range; the low end is attained; the high end is attained, or is the low end plus one when all estimates fall in the same minute |
| Eta.FloorDivMonotone | app/controllers/concerns/uber_command.rb:78-79 | dividing by 60 keeps the order of the estimates, so the floor minutes of the extremes bound every floor minute |
| Eta.EtaText | app/controllers/concerns/uber_command.rb:81 | the sentence opens with "Your ride will take between "; for non-negative ends, the two numbers around " to " read back as the low and the high end, followed by " minutes" |
| Messages.RideConfirmation | app/controllers/concerns/uber_command.rb:343-350 | an ETA under a minute is "very soon", one to two minutes is "in 1 minute", from two minutes up it is "in <whole minutes> minutes", and a negative ETA leaves the phrase empty; always inside the fixed thank-you sentence |
| Messages.ConfirmationAt125 | app/controllers/concerns/uber_command.rb:344-348 | 125 seconds is announced as "in 2 minutes" |
| Messages.ConfirmationIsNotFailure | app/controllers/concerns/uber_command.rb:211 | a booking confirmation is never the booking-failure message |
| Messages.EtaPhrase | app/controllers/concerns/uber_command.rb:346-348 | 0 minutes is "very soon", 1 is "in 1 minute", and from 2 up the digits between "in " and " minutes" start with no 0 and read back as the minute count; a negative count has no phrase |
| Messages.SurgeAcceptWith | app/controllers/concerns/uber_command.rb:156-160 | the reply starts with the multiplier and quotes `/uber accept` followed by that same multiplier |
| Messages.SurgeAccept | app/controllers/concerns/uber_command.rb:161-165 | the reply starts with the multiplier and quotes a bare `/uber accept` |
| Messages.RetryAccept | app/controllers/concerns/uber_command.rb:199 | the reply quotes `/uber accept` followed by the stored multiplier |
| Messages.FormatProducts | app/controllers/concerns/uber_command.rb:360-369 | a missing or empty product list gives the fixed no-products message; otherwise the text splits into the header line and exactly one line per product, in input order, each with that product's name, description and capacity |
| Messages.ProductsListing | app/controllers/concerns/uber_command.rb:364-368 | the header followed by the accumulated product lines splits back into the header and the product lines |
| Messages.ProductLinesAreLines | app/controllers/concerns/uber_command.rb:365-367 | appending each product's line and a line feed in turn is the same as joining the list of product lines |
| Messages.ListingLines | app/controllers/concerns/uber_command.rb:364-367 | a single-line header over single-line products splits back into exactly those lines |
| Messages.ProductLineSingleLine | app/controllers/concerns/uber_command.rb:366 | a product whose name and description hold no line feed has a one-line entry |
| Messages.FormatResponseErrors | app/controllers/concerns/uber_command.rb:353-358 | corrected: the header line, then one line per provider error with its title, in order |
| Messages.FormatResponseErrorsAsWritten | app/controllers/concerns/uber_command.rb:355-357 | as written: the method's value is the errors list itself |
| Messages.ResponseErrorsAsWrittenLosesMessage | app/controllers/concerns/uber_command.rb:353-358 | as written, the reply is never the message the loop builds |
| Rides.LatestFor | app/controllers/concerns/uber_command.rb:186 | none exactly when the user has no record; otherwise one of the user's records with the latest update time |
| Rides.LatestAfterAppend | app/controllers/concerns/uber_command.rb:151 | a record created no earlier than all others is the one the user's next lookup finds |
| Rides.Resolve | app/controllers/concerns/uber_command.rb:379-388 | a found address gives its coordinates; a miss leaves the error text as the latitude and nothing as the longitude |
| Rides.RideGuardAsWritten | app/controllers/concerns/uber_command.rb:119 | as written: no argument raises NoMethodError; otherwise the request proceeds exactly when it contains " to ", and is a format error if not |
| Rides.RideGuard | app/controllers/concerns/uber_command.rb:119 | corrected: the request proceeds exactly when an argument is present and contains " to "; everything else is a format error |
| Rides.RideWithoutArgument | app/controllers/concerns/uber_command.rb:46 | no argument raises as written and gets the format error when corrected |
| Rides.Endpoints | app/controllers/concerns/uber_command.rb:121 | the origin is the stripped text before the first "to", and the destination the stripped text between that "to" and the next one (or the end) |
| Rides.PlanTrip | app/controllers/concerns/uber_command.rb:122-125 | the origin and destination are the geocoded endpoints; the trip raises exactly when the default-product lookup at the origin raises, and otherwise carries that product |
| Rides.NewRecord | app/controllers/concerns/uber_command.rb:138-151 | the record carries the user, the trip, the current time and no booking id; the surge fields are present exactly when the estimate's confirmation id is not blank, and then they are the estimate's |
| Rides.BookNow | app/controllers/concerns/uber_command.rb:167-180 | exactly one booking request, without a confirmation id; a raising booking raises; provider errors are listed; otherwise the confirmation, and the new record keeps the booking id |
| Rides.AfterEstimate | app/controllers/concerns/uber_command.rb:151-182 | exactly one record is appended, with the surge fields only alongside a confirmation id; above 2.0 the reply echoes `accept <multiplier>`, from above 1.0 to 2.0 it asks for a bare `accept`, and neither books; at 1.0 or below it books; no request carries a confirmation id |
| Rides.EstimateTrip | app/controllers/concerns/uber_command.rb:127-136 | a raising estimate raises and records nothing; otherwise the outcome of the surge branch, with at most one record added and the record invariant kept |
| Rides.Ride | app/controllers/concerns/uber_command.rb:118-183 | without " to " the format error, with nothing recorded or sent; otherwise the table grows by at most one record and keeps its prefix and its invariant; a raising product lookup raises and records nothing; no request carries a confirmation id |
| Rides.StatedMatches | app/controllers/concerns/uber_command.rb:196-198 | the multiplier text a surge reply shows always passes; anything that passes is present and contains a point |
| Rides.StatedMatchesOne | app/controllers/concerns/uber_command.rb:197 | a stated multiplier passes the check for at most one stored multiplier |
| Rides.Stale | app/controllers/concerns/uber_command.rb:213 | more than 300 seconds (five minutes) have passed since the record's last update |
| Rides.StaleStaysStale | app/controllers/concerns/uber_command.rb:213 | a record is not stale at its own update time, and once stale it stays stale |
| Rides.RerunText | app/controllers/concerns/uber_command.rb:215-217 | the stored origin text, " to ", then the stored destination text, so the re-run request always passes `ride`'s format check |
| Rides.BookWithConfirmationAsWritten | app/controllers/concerns/uber_command.rb:219-239 | as written: a raising booking gives the failure message, and any other booking raises NoMethodError on `code` |
| Rides.BookedRideReportedAsFailure | app/controllers/concerns/uber_command.rb:235-236 | as written, even a booking accepted with status 200 does not produce the confirmation |
| Rides.BookWithConfirmation | app/controllers/concerns/uber_command.rb:219-239 | corrected: status 200 or 202 exactly gives the confirmation; a raised call or any other status gives the failure message |
| Rides.Accept | app/controllers/concerns/uber_command.rb:185-242 | no record gives the "not sure which ride" message; from 2.0 up, a missing or mismatched stated multiplier gives the retry message and changes nothing; a stale record re-runs `ride` on the stored coordinates and never sends the old confirmation id; a fresh one sends exactly one booking with the stored confirmation id and leaves the table as it was; the record invariant is kept |
| Workflow.RideRecordIsLatest | app/controllers/concerns/uber_command.rb:151 | the record `ride` just created is the one the user's next `accept` works on |
| Workflow.EchoedMultiplierBooks | app/controllers/concerns/uber_command.rb:156-160 | when the estimate is above 2.0 with a non-blank confirmation id, `ride` books nothing and echoes the multiplier; typing it back within five minutes books the recorded trip with the recorded confirmation id |
| Workflow.BareAcceptRefusedAtTwo | app/controllers/concerns/uber_command.rb:161-165 | when the estimate is exactly 2.0 with a non-blank confirmation id and the same user answers within five minutes, `ride` asks for a bare `accept`, but that bare `accept` gets the retry message and books nothing |
| Workflow.BareAcceptBooksBelowTwo | app/controllers/concerns/uber_command.rb:196 | when the estimate is strictly between 1.0 and 2.0 with a non-blank confirmation id, a bare `accept` by the same user within five minutes books with the recorded confirmation id |
| Workflow.LateAcceptReestimates | app/controllers/concerns/uber_command.rb:213-217 | when the estimate `ride` receives, and so the multiplier it records, is below 2.0 and the same user answers more than five minutes later, `accept` is `ride` re-run from the stored coordinates and sends no confirmation id |
| Workflow.AcceptIgnoresStatementBelowTwo | app/controllers/concerns/uber_command.rb:196-201 | below 2.0, what the user states makes no difference to `accept` |
| Numerals.NatToString | app/controllers/concerns/uber_command.rb:348 | a natural number prints as non-empty decimal digits without a leading zero |
| Numerals.DigitsValueOfNatToString | app/controllers/concerns/uber_command.rb:348 | reading the printed digits gives the number back |
| Numerals.IntToString | app/controllers/concerns/uber_command.rb:81 | a negative number prints as a minus sign before the digits of its magnitude |
| Numerals.RenderHundredths | app/controllers/concerns/uber_command.rb:158-159 | the whole units in shortest digits, a point, and the shortest fraction: one digit exactly when the hundredths end in 0, otherwise two digits with a non-zero last digit; the whole part reads back as the units and the fraction digits as the hundredths |
| Numerals.ToF | app/controllers/concerns/uber_command.rb:197 | the result is negative exactly when the text starts with a minus sign; after an optional sign, its digits are the longest run of digits the text starts with, followed, only when a point and a digit come next, by the longest run of digits after that point, whose length is the scale |
| Numerals.RenderedHundredthsReadBack | app/controllers/concerns/uber_command.rb:197-199 | a multiplier's printed text contains a point and `to_f` reads it back as the same multiplier |
| Numerals.RenderHundredthsInjective | app/controllers/concerns/uber_command.rb:158-159 | different multipliers print differently |
| Numerals.DecimalEqualsUnique | app/controllers/concerns/uber_command.rb:197 | a parsed number equals at most one multiplier |
| Numerals.ToFOfPointed | app/controllers/concerns/uber_command.rb:197 | `to_f` of digits, a point and digits reads exactly those digits with the fraction's scale |
| RubyText.Lower | app/controllers/concerns/uber_command.rb:43 | lower-casing keeps the length and lower-cases each character |
| RubyText.SplitFirstWord | app/controllers/concerns/uber_command.rb:42 | the first word of non-blank input is non-empty and holds no whitespace, and a rest, when there is one, does not start with whitespace |
| RubyText.SplitFirstWordOfJoin | app/controllers/concerns/uber_command.rb:42 | leading whitespace, a word, a whitespace run and a rest split into exactly that word and that rest |
| RubyText.Find | app/controllers/concerns/uber_command.rb:119 | the first position at or after the start where the pattern occurs, or none when it occurs nowhere there |
| RubyText.JoinSplitFields | app/controllers/concerns/uber_command.rb:121 | joining the fields of a split with the separator gives the input back |
| RubyText.DropTrailingEmpty | app/controllers/concerns/uber_command.rb:121 | a prefix of the fields that does not end in an empty field, with only empty fields dropped |
| RubyText.RubySplit | app/controllers/concerns/uber_command.rb:121 | the last kept field is never empty, no field contains the separator, and the first field is the text before the first separator |
| RubyText.RubySplitLosesOnlySeparators | app/controllers/concerns/uber_command.rb:121 | the input is the kept fields joined with the separator followed only by separators, so only trailing empty fields are dropped |
| RubyText.SplitAroundTo | app/controllers/concerns/uber_command.rb:119-121 | a request that contains " to " always splits on "to" into at least an origin and a destination |
| RubyText.Strip | app/controllers/concerns/uber_command.rb:121 | the result is a contiguous part of the input, with only whitespace and NUL removed at either end, and neither end of it is one of those |
| RubyText.SplitLinesOfUnlines | app/controllers/concerns/uber_command.rb:364-367 | lines without line feeds, each ended by a line feed, split back into exactly those lines |

## Left out

- HTTP and geocoding are not modelled: RestClient calls, URL building, the bearer header and `Geocoder.search`. Each service is a function-valued parameter (`Api.Services`), and a provider call that raises, including RestClient's exception on a non-success status, is `Threw`; the geocoder is the exception, see below.
- Api.Services.geocode: the geocoder answers a location or none (`Option<Coord>`). A geocoder that raises is not modelled.
- Handlers.GetEta: with RestClient's default behaviour a status 500 raises before `result.code` is read (line 74), so as written the `ServerError` branch is dead code. The model keeps that branch reachable: the ETA service may answer 500 without raising, and a raise is a separate `Threw` case.
- `get_default_product_id_for_lat_lng` is called by `ride` (line 125) but is not defined in the file, so as the file stands every well-formed `ride` raises NameError there. The model assumes the method exists outside this file as a provider lookup that may raise, like the other provider calls (`Api.Services.defaultProduct`). Its code is not part of this model.
- `ride_request_details` and `cancel_ride` are network wrappers that `run` cannot reach, so they are not modelled.
- `fares` is not modelled beyond `Command.FaresUnreachable`. It is unreachable because it is not in `VALID_COMMANDS`, and it swaps the high and low estimates.
- ActiveRecord persistence is not modelled: validations, database casting, and the lack of locking between concurrent `ride` and `accept` calls. The table is a sequence and one invocation sees one clock reading (`Api.Context.now`, in seconds).
- A stored multiplier defaults to 1.0 when `ride` records no confirmation id. The database schema that sets the default is not part of this model.
- Missing or malformed fields in the provider's JSON are not modelled: no `price`, a non-numeric `estimate`, `capacity` or `eta`. Each field is typed, and a missing `eta` is not distinguished from 0.
- Numerals.RenderHundredths: models `Float#to_s` only for multipliers that are whole hundredths, and not its exponent form for very large values.
- Numerals.ToF: reads an optional sign, digits and an optional point followed by digits. It skips none of `to_f`'s other leniencies: leading whitespace, underscores and exponents. It compares exactly rather than through binary floating point.
- Rides.StatedMatches: inherits the limits of `Numerals.ToF`, so a stated multiplier with leading whitespace, such as " 2.5", which Ruby reads as 2.5, is refused here.
- RubyText.Blank: treats only ASCII whitespace as blank, while Rails' `blank?` also treats other Unicode spaces as blank.
- RubyText.Lower: lower-cases only ASCII letters, while Ruby's `downcase` also folds other letters.
- Messages.FormatProducts: the one-line-per-product property is stated for names and descriptions without line feeds. A field holding a line feed adds lines of its own.
- Messages.FormatResponseErrors: the one-line-per-error property is stated for titles without line feeds.
- Handlers.GetEta: estimates are integers of seconds. Ruby's division also floors them, which Dafny's division matches for the positive divisor 60.

## Findings

| source | as written | input that shows it | evidently intended | confidence | as-written member | corrected member |
|---|---|---|---|---|---|---|
| app/controllers/concerns/uber_command.rb:46, 119 | with no argument, `ride` is called with nil and `nil.include?(" to ")` raises NoMethodError | "/uber ride" | the ride format help, as for any other badly formed request | high; not executed | Rides.RideGuardAsWritten | Rides.RideGuard |
| app/controllers/concerns/uber_command.rb:353-358 | `format_response_errors` ends with `each`, so its value is the errors array, not the message it built | a booking answered with errors `[{"title": "x"}]` | the header line and one line per error title | high; not executed | Messages.FormatResponseErrorsAsWritten | Messages.FormatResponseErrors |
| app/controllers/concerns/uber_command.rb:235, 263 | `request_ride!` returns the parsed JSON body, a Hash, and `accept` calls `code` on it, so every booking that does not raise ends in NoMethodError | "/uber accept" within five minutes of a ride at 1.5x, booking answered with status 200 | status 200 or 202 confirms the ride, any other status gives the failure message | high; not executed | Rides.BookWithConfirmationAsWritten | Rides.BookWithConfirmation |

The rest of the model uses the corrected members. One boundary is not listed as a finding: at exactly 2.0, `ride` asks for a bare `accept`, but `accept` demands the multiplier from 2.0 up. The model keeps this behaviour as written rather than choosing either threshold, and `Workflow.BareAcceptRefusedAtTwo` states the consequence.

=== FILE: api.dfy ===
/**
 * What the interpreter exchanges with the outside world. The geocoder, the
 * ride provider's HTTP endpoints and the default-product lookup are not
 * modelled; each is a function the caller supplies, and a call that can
 * raise returns `Threw` instead of a value.
 */
module Api {
  import opened Wrappers

  /** A latitude/longitude pair, each half kept as the text Ruby interpolates it as. */
  datatype Coord = Coord(lat: string, lng: string)

  /** The outcome of an external call that may raise. */
  datatype Call<+T> = Returned(value: T) | Threw

  /** `GET /v1/estimates/time`: the HTTP status and each product's pickup estimate, in seconds. */
  datatype TimesReply = TimesReply(status: int, estimates: seq<int>)

  /** One entry of `GET /v1/products`. */
  datatype Product = Product(displayName: string, description: string, capacity: int)

  /** `POST /v1/requests/estimate`: the surge multiplier (in hundredths) and its confirmation id, if any. */
  datatype Estimate = Estimate(surge: nat, confirmationId: Option<string>)

  /** One entry of the provider's `errors` list. */
  datatype ProviderError = ProviderError(title: string)

  /** `POST /v1/requests`: the status, the `errors` list when present, the booking id and the ETA in seconds. */
  datatype Booking = Booking(status: int, errors: Option<seq<ProviderError>>, requestId: string, eta: int)

  /** The body of a booking request. */
  datatype BookRequest = BookRequest(origin: Coord, destination: Coord, product: string, confirmationId: Option<string>)

  /** The external collaborators, as pure functions of their inputs. */
  datatype Services = Services(
    geocode: string -> Option<Coord>,
    defaultProduct: Coord -> Call<string>,
    times: Coord -> Call<TimesReply>,
    products: Coord -> Call<Option<seq<Product>>>,
    estimate: (Coord, Coord, string) -> Call<Estimate>,
    requestRide: BookRequest -> Call<Booking>)

  /** Who is asking, the current time in seconds, and the services. */
  datatype Context = Context(user: string, now: int, services: Services)

  /** Why an invocation raised instead of answering. */
  datatype Failure = NoMethodError(name: string) | ServiceError

  /** What a handler gives back: a text, the provider's error list itself, or an exception. */
  datatype Reply = Text(text: string) | ErrorArray(errors: seq<ProviderError>) | Raised(failure: Failure)
}

=== FILE: command.dfy ===
/**
 * `UberCommand#run`: split the input into a command word and an argument,
 * lower-case both, refuse any word outside the closed set of commands, and
 * hand the argument to the handler of the same name.
 */
module Command {
  import opened Wrappers
  import opened RubyText
  import opened Api
  import opened Messages
  import opened Numerals
  import Handlers
  import Rides

  /** The commands `run` accepts. */
  datatype Command = RideCommand | ProductsCommand | GetEtaCommand | HelpCommand | AcceptCommand

  /** `VALID_COMMANDS`, in the source's order. */
  const ValidCommands: seq<string> := ["ride", "products", "get_eta", "help", "accept"]

  /** The word that selects a command, which is also the name of its handler. */
  function Name(c: Command): string {
    match c
    case RideCommand => "ride"
    case ProductsCommand => "products"
    case GetEtaCommand => "get_eta"
    case HelpCommand => "help"
    case AcceptCommand => "accept"
  }

  /** `invalid_command?` negated: the command a word names, if it names one. */
  function Lookup(word: string): (r: Option<Command>)
    ensures r.Some? <==> word in ValidCommands
    ensures r.Some? ==> Name(r.value) == word
  {
    if word == "ride" then Some(RideCommand)
    else if word == "products" then Some(ProductsCommand)
    else if word == "get_eta" then Some(GetEtaCommand)
    else if word == "help" then Some(HelpCommand)
    else if word == "accept" then Some(AcceptCommand)
    else None
  }

  /** Every command is found again by its name. */
  lemma LookupName(c: Command)
    ensures Lookup(Name(c)) == Some(c)
  {
  }

  /** What `run` decides before any handler runs. */
  datatype Dispatch = Unknown | Handle(command: Command, argument: Option<string>)

  /**
   * The parsing half of `run`: a blank input is unknown; otherwise the first
   * word, lower-cased, must name a command, and the rest after the first
   * whitespace run, lower-cased, is its argument (absent when nothing follows
   * the word).
   */
  function Parse(input: string): (d: Dispatch)
    ensures Blank(input) ==> d == Unknown
    ensures !Blank(input) ==>
      var split := SplitFirstWord(input);
      && (d.Unknown? <==> Lower(split.word) !in ValidCommands)
      && (d.Handle? ==> Name(d.command) == Lower(split.word))
      && (d.Handle? ==> d.argument.Some? == split.rest.Some?)
      && (d.Handle? && d.argument.Some? ==> d.argument.value == Lower(split.rest.value))
  {
    if Blank(input) then Unknown
    else
      var split := SplitFirstWord(input);
      match Lookup(Lower(split.word))
      case None => Unknown
      case Some(c) =>
        Handle(c, if split.rest.Some? then Some(Lower(split.rest.value)) else None)
  }

  /** `send(command_name, command_argument)`: the handler of the command's name. */
  function Invoke(ctx: Context, store: seq<Rides.RideRecord>, c: Command, arg: Option<string>): (r: Rides.Outcome)
    ensures c !in {RideCommand, AcceptCommand} ==> r.store == store && r.requests == []
    ensures Rides.ValidStore(store) ==> Rides.ValidStore(r.store)
  {
    match c
    case RideCommand => Rides.Ride(ctx, store, arg)
    case ProductsCommand => Rides.Outcome(Handlers.Products(ctx.services, arg), store, [])
    case GetEtaCommand => Rides.Outcome(Handlers.GetEta(ctx.services, arg), store, [])
    case HelpCommand => Rides.Outcome(Handlers.Help(arg), store, [])
    case AcceptCommand => Rides.Accept(ctx, store, arg)
  }

  /**
   * `run`: an unknown command gets the fixed error and reaches no handler,
   * leaving the store as it was and sending nothing; a known one is handled
   * by the handler of its name.
   */
  function Run(ctx: Context, store: seq<Rides.RideRecord>, input: string): (r: Rides.Outcome)
    ensures Parse(input).Unknown? ==> r == Rides.Outcome(Text(UnknownCommandError), store, [])
    ensures Parse(input).Handle? ==> r == Invoke(ctx, store, Parse(input).command, Parse(input).argument)
    ensures Rides.ValidStore(store) ==> Rides.ValidStore(r.store)
  {
    match Parse(input)
    case Unknown => Rides.Outcome(Text(UnknownCommandError), store, [])
    case Handle(c, arg) => Invoke(ctx, store, c, arg)
  }

  /**
   * A word outside the command set, in any letter case and with any
   * argument, gets the fixed error and reaches no handler.
   */
  lemma UnknownWordRejected(ctx: Context, store: seq<Rides.RideRecord>, lead: string, word: string, sep: string, rest: string)
    requires Blank(lead) && Blank(sep) && sep != []
    requires word != [] && NoSpace(word)
    requires rest == [] || !IsSpace(rest[0])
    requires Lower(word) !in ValidCommands
    ensures Run(ctx, store, lead + word + sep + rest) == Rides.Outcome(Text(UnknownCommandError), store, [])
    ensures Run(ctx, store, lead + word) == Rides.Outcome(Text(UnknownCommandError), store, [])
  {
    SplitFirstWordOfJoin(lead, word, sep, rest);
    assert Parse(lead + word + sep + rest) == Unknown;
    SplitFirstWordOfWord(lead, word);
    assert Parse(lead + word) == Unknown;
  }

  /**
   * A command word, in any letter case, followed by whitespace and a rest
   * runs the handler of that name on the lower-cased rest; with nothing after
   * the word the handler gets no argument.
   */
  lemma CommandWordDispatched(ctx: Context, store: seq<Rides.RideRecord>, lead: string, word: string, sep: string, rest: string)
    requires Blank(lead) && Blank(sep) && sep != []
    requires word != [] && NoSpace(word)
    requires rest == [] || !IsSpace(rest[0])
    requires Lookup(Lower(word)).Some?
    ensures Run(ctx, store, lead + word + sep + rest) == Invoke(ctx, store, Lookup(Lower(word)).value, Some(Lower(rest)))
    ensures Run(ctx, store, lead + word) == Invoke(ctx, store, Lookup(Lower(word)).value, None)
  {
    var c := Lookup(Lower(word)).value;
    SplitFirstWordOfJoin(lead, word, sep, rest);
    assert Parse(lead + word + sep + rest) == Handle(c, Some(Lower(rest)));
    SplitFirstWordOfWord(lead, word);
    assert Parse(lead + word) == Handle(c, None);
  }

  /** "products " has an empty argument, which `products` refuses with its format help. */
  lemma ProductsWithTrailingSpace(ctx: Context, store: seq<Rides.RideRecord>)
    ensures Run(ctx, store, "products ") == Rides.Outcome(Text(ProductsRequestFormatError), store, [])
  {
    assert "products " == [] + "products" + " " + [];
    CommandWordDispatched(ctx, store, [], "products", " ", []);
    assert Lower("products") == "products";
  }

  /** "ride" alone is answered with the ride format help (the corrected first check). */
  lemma RideWithoutArgument(ctx: Context, store: seq<Rides.RideRecord>)
    ensures Run(ctx, store, "ride") == Rides.Outcome(Text(RideRequestFormatError), store, [])
  {
    assert "ride" == [] + "ride";
    CommandWordDispatched(ctx, store, [], "ride", " ", []);
    assert Lower("ride") == "ride";
  }

  /** `fares` has a handler but is not a command, so `run` never reaches it. */
  lemma FaresUnreachable(ctx: Context, store: seq<Rides.RideRecord>, rest: string)
    requires rest == [] || !IsSpace(rest[0])
    ensures Run(ctx, store, "fares " + rest) == Rides.Outcome(Text(UnknownCommandError), store, [])
  {
    assert "fares " + rest == [] + "fares" + " " + rest;
    assert Lower("fares") == "fares";
    UnknownWordRejected(ctx, store, [], "fares", " ", rest);
  }

  /**
   * Without surge, with a product lookup that answers and a booking the
   * provider accepts, `ride` answers with the booking confirmation.
   */
  lemma RideBooksWithoutSurge(ctx: Context, store: seq<Rides.RideRecord>, s: string, b: Booking)
    requires Rides.RideGuard(Some(s)).None?
    requires forall c :: ctx.services.defaultProduct(c).Returned?
    requires forall o, d, p :: ctx.services.estimate(o, d, p) == Returned(Estimate(100, None))
    requires forall req :: ctx.services.requestRide(req) == Returned(b)
    requires b.errors.None?
    ensures Rides.Ride(ctx, store, Some(s)).reply == Text(RideConfirmation(b.eta))
  {
    var trip := Rides.PlanTrip(ctx.services, s).value;
    var est := Estimate(100, None);
    assert ctx.services.estimate(trip.origin, trip.destination, trip.product) == Returned(est);
    var rec := Rides.NewRecord(ctx, trip, est);
    var req := BookRequest(rec.origin, rec.destination, rec.product, None);
    assert ctx.services.requestRide(req) == Returned(b);
  }

  /** An argument with " to " at `k`, in lower case, passes `ride`'s format check. */
  lemma SpacedToWellFormed(arg: string, k: nat)
    requires k + 4 <= |arg| && arg[k..k + 4] == " to "
    ensures Rides.RideGuard(Some(Lower(arg))).None?
  {
    assert OccursAt(arg, k, " to ");
    LowerKeepsSpacedTo(arg, k);
    OccursThenContains(Lower(arg), k, " to ");
  }

  /**
   * "ride <origin> to <destination>" with no surge, a product lookup that
   * answers and a booking the provider accepts is answered with the booking
   * confirmation for the provider's ETA, whatever the geocoder answers.
   */
  lemma RideCommandWithoutSurge(ctx: Context, store: seq<Rides.RideRecord>, arg: string, k: nat, b: Booking)
    requires arg != [] && !IsSpace(arg[0])
    requires k + 4 <= |arg| && arg[k..k + 4] == " to "
    requires forall c :: ctx.services.defaultProduct(c).Returned?
    requires forall o, d, p :: ctx.services.estimate(o, d, p) == Returned(Estimate(100, None))
    requires forall req :: ctx.services.requestRide(req) == Returned(b)
    requires b.errors.None?
    ensures Run(ctx, store, "ride " + arg).reply == Text(RideConfirmation(b.eta))
  {
    assert "ride " + arg == [] + "ride" + " " + arg;
    assert Lower("ride") == "ride";
    CommandWordDispatched(ctx, store, [], "ride", " ", arg);
    SpacedToWellFormed(arg, k);
    RideBooksWithoutSurge(ctx, store, Lower(arg), b);
  }

  /**
   * "ride 1 Market St to 1 Mission St" with no surge and a booking whose
   * ETA is 125 seconds is confirmed as arriving in 2 minutes.
   */
  lemma RideWithoutSurgeExample(ctx: Context, store: seq<Rides.RideRecord>, id: string)
    requires forall c :: ctx.services.defaultProduct(c).Returned?
    requires forall o, d, p :: ctx.services.estimate(o, d, p) == Returned(Estimate(100, None))
    requires forall req :: ctx.services.requestRide(req) == Returned(Booking(200, None, id, 125))
    ensures Run(ctx, store, "ride 1 Market St to 1 Mission St").reply == Text(ConfirmationPrefix + "in 2 minutes.")
  {
    var origin, destination := "1 Market St", "1 Mission St";
    var arg := origin + " to " + destination;
    assert "ride 1 Market St to 1 Mission St" == "ride " + arg;
    assert arg[0] == origin[0] == '1';
    assert arg[|origin|..|origin| + 4] == " to ";
    RideCommandWithoutSurge(ctx, store, arg, |origin|, Booking(200, None, id, 125));
    ConfirmationAt125();
  }

  lemma InvokeAccept(ctx: Context, store: seq<Rides.RideRecord>, arg: Option<string>)
    ensures Invoke(ctx, store, AcceptCommand, arg) == Rides.Accept(ctx, store, arg)
  {
  }

  /** An `accept` argument without capitals reaches `accept` as typed. */
  lemma AcceptCommandArgument(ctx: Context, store: seq<Rides.RideRecord>, stated: string)
    requires stated != [] && !IsSpace(stated[0])
    requires forall i :: 0 <= i < |stated| ==> !('A' <= stated[i] <= 'Z')
    ensures Run(ctx, store, "accept " + stated) == Rides.Accept(ctx, store, Some(stated))
  {
    LowerWithoutCapitals(stated);
    assert "accept " + stated == [] + "accept" + " " + stated;
    assert Lower("accept") == "accept";
    assert Lookup("accept") == Some(AcceptCommand);
    CommandWordDispatched(ctx, store, [], "accept", " ", stated);
    assert Run(ctx, store, "accept " + stated) == Invoke(ctx, store, AcceptCommand, Some(stated));
    InvokeAccept(ctx, store, Some(stated));
  }

  /**
   * Typing back, through `run`, the multiplier a surge reply echoed reaches
   * `accept` unchanged and passes its multiplier check.
   */
  lemma EchoedAcceptPassesCheck(ctx: Context, store: seq<Rides.RideRecord>, h: nat)
    ensures var stated := RenderHundredths(h);
      && Run(ctx, store, "accept " + stated) == Rides.Accept(ctx, store, Some(stated))
      && Rides.StatedMatches(Some(stated), h)
  {
    var stated := RenderHundredths(h);
    RenderedHundredthsCharacters(h);
    forall i | 0 <= i < |stated| ensures !('A' <= stated[i] <= 'Z') {
      assert IsDigit(stated[i]) || stated[i] == '.';
    }
    AcceptCommandArgument(ctx, store, stated);
    RenderedHundredthsReadBack(h);
  }
}

=== FILE: eta.dfy ===
/**
 * The arithmetic of `get_eta`: the smallest and largest pickup estimate,
 * each as whole minutes, with the upper end bumped by one when the two
 * would be equal so that the range is never a single point.
 */
module Eta {
  import opened Numerals

  /** The smallest and the largest element of a non-empty list, as `minmax` returns them. */
  function MinMax(xs: seq<int>): (r: (int, int))
    requires |xs| > 0
    ensures r.0 in xs && r.1 in xs
    ensures forall i :: 0 <= i < |xs| ==> r.0 <= xs[i] <= r.1
  {
    if |xs| == 1 then (xs[0], xs[0])
    else
      var rest := MinMax(xs[1..]);
      (if xs[0] <= rest.0 then xs[0] else rest.0,
       if xs[0] >= rest.1 then xs[0] else rest.1)
  }

  /** A range of whole minutes. */
  datatype MinuteRange = MinuteRange(low: int, high: int)

  /**
   * The minute range `get_eta` reports for estimates in seconds (Ruby's
   * integer division rounds toward negative infinity, as Dafny's does for a
   * positive divisor).
   */
  function EtaRange(estimates: seq<int>): (r: MinuteRange)
    requires |estimates| > 0
    ensures r.low < r.high
    ensures forall i :: 0 <= i < |estimates| ==> r.low <= estimates[i] / 60 <= r.high
    ensures exists i :: 0 <= i < |estimates| && r.low == estimates[i] / 60
    ensures (exists i :: 0 <= i < |estimates| && r.high == estimates[i] / 60)
            || (r.high == r.low + 1 && forall i :: 0 <= i < |estimates| ==> estimates[i] / 60 == r.low)
  {
    var (lo, hi) := MinMax(estimates);
    var low := lo / 60;
    var high := hi / 60;
    FloorDivMonotone(estimates, lo, hi);
    if high == low then MinuteRange(low, high + 1) else MinuteRange(low, high)
  }

  lemma FloorDivMonotone(xs: seq<int>, lo: int, hi: int)
    requires forall i :: 0 <= i < |xs| ==> lo <= xs[i] <= hi
    ensures forall i :: 0 <= i < |xs| ==> lo / 60 <= xs[i] / 60 <= hi / 60
  {
    forall i | 0 <= i < |xs| ensures lo / 60 <= xs[i] / 60 <= hi / 60 {
      DivMonotone(lo, xs[i]);
      DivMonotone(xs[i], hi);
    }
  }

  lemma DivMonotone(a: int, b: int)
    requires a <= b
    ensures a / 60 <= b / 60
  {
  }

  /** How the `get_eta` sentence begins. */
  const EtaPrefix: string := "Your ride will take between "

  /**
   * The sentence `get_eta` answers with: after the fixed opening, the low
   * end, " to ", the high end and " minutes"; both numbers read back.
   */
  function EtaText(m: MinuteRange): (r: string)
    ensures |r| > |EtaPrefix| && r[..|EtaPrefix|] == EtaPrefix
    ensures 0 <= m.low && 0 <= m.high ==>
      var p, a, b := |EtaPrefix|, |NatToString(m.low)|, |NatToString(m.high)|;
      && |r| == p + a + 4 + b + 8
      && AllDigits(r[p..p + a]) && DigitsValue(r[p..p + a]) == m.low
      && r[p + a..p + a + 4] == " to "
      && AllDigits(r[p + a + 4..p + a + 4 + b]) && DigitsValue(r[p + a + 4..p + a + 4 + b]) == m.high
      && r[p + a + 4 + b..] == " minutes"
  {
    var lo, hi := IntToString(m.low), IntToString(m.high);
    RangeSentenceParts(EtaPrefix, lo, hi);
    NumbersReadBack(m.low, m.high);
    EtaPrefix + lo + (" to " + hi + " minutes")
  }

  /** The parts of a range sentence read back one by one. */
  lemma RangeSentenceParts(pre: string, lo: string, hi: string)
    ensures var r, p, a, b := pre + lo + (" to " + hi + " minutes"), |pre|, |lo|, |hi|;
      && |r| == p + a + 4 + b + 8
      && r[..p] == pre
      && r[p..p + a] == lo
      && r[p + a..p + a + 4] == " to "
      && r[p + a + 4..p + a + 4 + b] == hi
      && r[p + a + 4 + b..] == " minutes"
  {
    var rest := " to " + hi + " minutes";
    ConcatParts(pre, lo, rest);
    ConcatParts(" to ", hi, " minutes");
    SliceOfTail(pre + lo, rest, 0, 4);
    SliceOfTail(pre + lo, rest, 4, 4 + |hi|);
    SliceOfTail(pre + lo, rest, 4 + |hi|, |rest|);
  }

  lemma NumbersReadBack(low: int, high: int)
    ensures 0 <= low ==> DigitsValue(NatToString(low)) == low
    ensures 0 <= high ==> DigitsValue(NatToString(high)) == high
  {
    if 0 <= low { DigitsValueOfNatToString(low); }
    if 0 <= high { DigitsValueOfNatToString(high); }
  }
}
=== FILE: handlers.dfy ===
/** The handlers that only answer: `help`, `products` and `get_eta`. */
module Handlers {
  import opened Wrappers
  import opened RubyText
  import opened Api
  import opened Messages
  import opened Eta

  /** `help`: the usage text, whatever the argument. */
  function Help(arg: Option<string>): (r: Reply)
    ensures r == Text(HelpText)
  {
    Text(HelpText)
  }

  /**
   * `products`: a missing or blank address is a format error, an address
   * the geocoder does not find is a location error, and otherwise the
   * provider's product list is formatted.
   */
  function Products(services: Services, arg: Option<string>): (r: Reply)
    ensures arg.None? || Blank(arg.value) ==> r == Text(ProductsRequestFormatError)
    ensures arg.Some? && !Blank(arg.value) && services.geocode(arg.value).None? ==>
      r == Text(LocationNotFoundError)
    ensures arg.Some? && !Blank(arg.value) && services.geocode(arg.value).Some? ==>
      var reply := services.products(services.geocode(arg.value).value);
      && (reply.Threw? ==> r == Raised(ServiceError))
      && (reply.Returned? ==> r == Text(FormatProducts(reply.value)))
  {
    if arg.None? || Blank(arg.value) then Text(ProductsRequestFormatError)
    else match services.geocode(arg.value)
      case None => Text(LocationNotFoundError)
      case Some(c) =>
        match services.products(c)
        case Threw => Raised(ServiceError)
        case Returned(ps) => Text(FormatProducts(ps))
  }

  /**
   * `get_eta`: a missing or unknown address is a location error, a 500
   * status is an apology, an empty estimate list makes `minmax` yield nil and
   * `nil['estimate']` raise, and otherwise the minute range is reported.
   */
  function GetEta(services: Services, arg: Option<string>): (r: Reply)
    ensures arg.None? || services.geocode(arg.value).None? ==> r == Text(LocationNotFoundError)
    ensures arg.Some? && services.geocode(arg.value).Some? ==>
      var reply := services.times(services.geocode(arg.value).value);
      && (reply.Threw? ==> r == Raised(ServiceError))
      && (reply.Returned? && reply.value.status == 500 ==> r == Text(ServerError))
      && (reply.Returned? && reply.value.status != 500 && reply.value.estimates == [] ==>
            r == Raised(NoMethodError("[]")))
      && (reply.Returned? && reply.value.status != 500 && reply.value.estimates != [] ==>
            r == Text(EtaText(EtaRange(reply.value.estimates))))
  {
    if arg.None? then Text(LocationNotFoundError)
    else match services.geocode(arg.value)
      case None => Text(LocationNotFoundError)
      case Some(c) =>
        match services.times(c)
        case Threw => Raised(ServiceError)
        case Returned(t) =>
          if t.status == 500 then Text(ServerError)
          else if t.estimates == [] then Raised(NoMethodError("[]"))
          else Text(EtaText(EtaRange(t.estimates)))
  }
}

=== FILE: messages.dfy ===
/** The interpreter's fixed messages and the formatters that build the rest. */
module Messages {
  import opened RubyText
  import opened Numerals
  import opened Api

  const RideRequestFormatError: string :=
    "  To request a ride please use the format */uber ride [origin] to [destination]*.\n"
    + "  For best results, specify a city or zip code.\n"
    + "  Ex: */uber ride 1061 Market Street San Francisco to 405 Howard St*\n"

  const ProductsRequestFormatError: string :=
    "  To see a list of products please use the format */uber products [address]*.\n"
    + "  For best results, specify a city or zip code.\n"
    + "  Ex: */uber products 1061 Market Street San Francisco\n"

  const UnknownCommandError: string :=
    "  Sorry, we didn't quite catch that command.  Try */uber help* for a list.\n"

  const HelpText: string :=
    "  Try these commands:\n"
    + "  - ride [origin address] to [destination address]\n"
    + "  - products [address]\n"
    + "  - help\n"

  const LocationNotFoundError: string :=
    "Please enter a valid address. Be as specific as possible (e.g. include city)."

  const NoRideToConfirm: string :=
    "Sorry, we're not sure which ride you want to confirm. Please try requesting another."

  const RequestFailed: string :=
    "Sorry but something went wrong. We were unable to request a ride."

  const ServerError: string := "Sorry, something went wrong on our part"

  const NoProducts: string := "No Uber products available for that location."

  /** First line of a products listing (the text before its line feed). */
  const ProductsHeader: string := "The following products are available: "

  /** First line of a provider-errors listing. */
  const ErrorsHeader: string := "The following errors occurred: "

  const ConfirmationPrefix: string := "Thanks! A driver will be on their way soon. We expect them to arrive "

  /**
   * How soon, for a whole number of minutes: "very soon", "in 1 minute", or
   * the count (which reads back as the minutes) between "in " and
   * " minutes"; a negative count has no phrase (Ruby's nil).
   */
  function EtaPhrase(minutes: int): (r: string)
    ensures minutes == 0 ==> r == "very soon"
    ensures minutes == 1 ==> r == "in 1 minute"
    ensures minutes > 1 ==>
      && |r| >= 12 && r[..3] == "in " && r[|r| - 8..] == " minutes" && r[3] != '0'
      && AllDigits(r[3..|r| - 8]) && DigitsValue(r[3..|r| - 8]) == minutes
    ensures minutes < 0 ==> r == []
  {
    if minutes == 0 then "very soon"
    else if minutes == 1 then "in 1 minute"
    else if minutes > 1 then
      var n := NatToString(minutes);
      ConcatParts("in ", n, " minutes");
      DigitsValueOfNatToString(minutes);
      "in " + n + " minutes"
    else ""
  }

  /** The booking confirmation for a provider ETA given in seconds. */
  function RideConfirmation(etaSeconds: int): (r: string)
    ensures 0 <= etaSeconds < 60 ==> r == ConfirmationPrefix + "very soon."
    ensures 60 <= etaSeconds < 120 ==> r == ConfirmationPrefix + "in 1 minute."
    ensures etaSeconds >= 120 ==>
      etaSeconds / 60 >= 2 && r == ConfirmationPrefix + "in " + NatToString(etaSeconds / 60) + " minutes."
    ensures etaSeconds < 0 ==> r == ConfirmationPrefix + "."
  {
    var m := etaSeconds / 60;
    WholeMinutes(etaSeconds);
    ConfirmationPrefix + EtaPhrase(m) + "."
  }

  /** Which whole minute (rounded down) an ETA in seconds falls in, by range. */
  lemma WholeMinutes(etaSeconds: int)
    ensures 0 <= etaSeconds < 60 ==> etaSeconds / 60 == 0
    ensures 60 <= etaSeconds < 120 ==> etaSeconds / 60 == 1
    ensures etaSeconds >= 120 ==> etaSeconds / 60 >= 2
    ensures etaSeconds < 0 ==> etaSeconds / 60 < 0
  {
  }

  /** An ETA of 125 seconds is announced as two minutes. */
  lemma ConfirmationAt125()
    ensures RideConfirmation(125) == ConfirmationPrefix + "in 2 minutes."
  {
    assert NatToString(2) == [Digit(2)] == "2";
    assert EtaPhrase(2) == "in 2 minutes";
  }

  /** A booking confirmation is never the booking-failure message. */
  lemma ConfirmationIsNotFailure(eta: int)
    ensures RideConfirmation(eta) != RequestFailed
  {
    assert |RideConfirmation(eta)| > |ConfirmationPrefix| > |RequestFailed|;
  }

  /** What a surge reply says between the multiplier and the instruction. */
  const SurgeNotice: string := "x surge is in effect. Reply "

  /** How every reply that asks for a confirmation ends. */
  const ConfirmTail: string := " to confirm the ride."

  /** The quoted command a reply asks the user to type back. */
  function AcceptInstruction(stated: string): string {
    "'/uber accept" + stated + "'"
  }

  /** A surge reply: the multiplier, the notice, the quoted instruction and the closing words. */
  function SurgeReply(m: string, ask: string): (r: string)
    ensures |r| > |m| && r[..|m|] == m
    ensures Contains(r, ask)
  {
    var head := m + SurgeNotice;
    ConcatParts(head, ask, ConfirmTail);
    OccursThenContains(head + ask + ConfirmTail, |head|, ask);
    assert (head + ask + ConfirmTail)[..|m|] == head[..|m|];
    head + ask + ConfirmTail
  }

  /**
   * `surge_multiplier > 2`: the reply starts with the multiplier and asks
   * for `/uber accept` followed by that same multiplier.
   */
  function SurgeAcceptWith(h: nat): (r: string)
    ensures var m := RenderHundredths(h);
      && |r| > |m| && r[..|m|] == m
      && Contains(r, AcceptInstruction(" " + m))
  {
    var m := RenderHundredths(h);
    SurgeReply(m, AcceptInstruction(" " + m))
  }

  /** `1 < surge_multiplier <= 2`: the reply starts with the multiplier and asks for a bare `/uber accept`. */
  function SurgeAccept(h: nat): (r: string)
    ensures var m := RenderHundredths(h);
      && |r| > |m| && r[..|m|] == m
      && Contains(r, AcceptInstruction(""))
  {
    SurgeReply(RenderHundredths(h), AcceptInstruction(""))
  }

  /** What the retry reply says before the instruction. */
  const RetryNotice: string := "That didn't work. Please reply "

  /** The stated multiplier did not match the stored one: the reply asks for `/uber accept` with the stored multiplier. */
  function RetryAccept(h: nat): (r: string)
    ensures Contains(r, AcceptInstruction(" " + RenderHundredths(h)))
  {
    var ask := AcceptInstruction(" " + RenderHundredths(h));
    ConcatParts(RetryNotice, ask, ConfirmTail);
    OccursThenContains(RetryNotice + ask + ConfirmTail, |RetryNotice|, ask);
    RetryNotice + ask + ConfirmTail
  }

  /** One product's line of the listing, without its line feed. */
  function ProductLine(p: Product): string {
    "- " + p.displayName + ": " + p.description + " (Capacity: " + IntToString(p.capacity) + ")"
  }

  /** The product lines appended one after the other in list order, as the `each` loop does. */
  function ProductLines(ps: seq<Product>): string {
    if ps == [] then [] else ProductLines(ps[..|ps| - 1]) + ProductLine(ps[|ps| - 1]) + "\n"
  }

  /** The listing's text fields hold no line feed. */
  predicate SingleLineProducts(ps: seq<Product>) {
    forall i :: 0 <= i < |ps| ==> NoNewline(ps[i].displayName) && NoNewline(ps[i].description)
  }

  /**
   * `format_products_response`: the fixed message when the `products` entry
   * is missing or empty, otherwise a header line and one line per product,
   * in the order given.
   */
  function FormatProducts(products: Wrappers.Option<seq<Product>>): (r: string)
    ensures products.None? || products.value == [] ==> r == NoProducts
    ensures products.Some? && products.value != [] && SingleLineProducts(products.value) ==>
      var ls := SplitLines(r);
      && |ls| == |products.value| + 1
      && ls[0] == ProductsHeader
      && forall i :: 0 <= i < |products.value| ==> ls[i + 1] == ProductLine(products.value[i])
  {
    if products.None? || products.value == [] then NoProducts
    else
      ProductsListing(products.value);
      ProductsHeader + "\n" + ProductLines(products.value)
  }

  lemma ProductsListing(ps: seq<Product>)
    ensures SingleLineProducts(ps) ==>
      var ls := SplitLines(ProductsHeader + "\n" + ProductLines(ps));
      && |ls| == |ps| + 1
      && ls[0] == ProductsHeader
      && forall i :: 0 <= i < |ps| ==> ls[i + 1] == ProductLine(ps[i])
  {
    HeaderSingleLine();
    ListingUnder(ProductsHeader, ps);
  }

  /** A one-line header over the product lines splits into the header and one line per product. */
  lemma ListingUnder(header: string, ps: seq<Product>)
    requires NoNewline(header)
    ensures SingleLineProducts(ps) ==>
      var ls := SplitLines(header + "\n" + ProductLines(ps));
      && |ls| == |ps| + 1
      && ls[0] == header
      && forall i :: 0 <= i < |ps| ==> ls[i + 1] == ProductLine(ps[i])
  {
    if SingleLineProducts(ps) {
      var lines := ProductLineList(ps);
      ProductLinesAreLines(ps);
      ListingLines(header, ps);
      var ls := SplitLines(header + "\n" + ProductLines(ps));
      assert ls == [header] + lines;
      forall i | 0 <= i < |ps| ensures ls[i + 1] == ProductLine(ps[i]) {
        assert ls[i + 1] == lines[i];
      }
    }
  }

  lemma HeaderSingleLine()
    ensures NoNewline(ProductsHeader)
  {
  }

  /** The product lines, as a list. */
  function ProductLineList(ps: seq<Product>): (ls: seq<string>)
    ensures |ls| == |ps| && forall i :: 0 <= i < |ps| ==> ls[i] == ProductLine(ps[i])
  {
    seq(|ps|, i requires 0 <= i < |ps| => ProductLine(ps[i]))
  }

  lemma {:induction false} UnlinesSnoc(ls: seq<string>, l: string)
    ensures Unlines(ls + [l]) == Unlines(ls) + l + "\n"
    decreases |ls|
  {
    if ls == [] {
      assert [] + [l] == [l];
    } else {
      assert (ls + [l])[1..] == ls[1..] + [l];
      UnlinesSnoc(ls[1..], l);
    }
  }

  lemma {:induction false} ProductLinesAreLines(ps: seq<Product>)
    ensures ProductLines(ps) == Unlines(ProductLineList(ps))
    decreases |ps|
  {
    if ps != [] {
      var init, line := ps[..|ps| - 1], ProductLine(ps[|ps| - 1]);
      ProductLinesAreLines(init);
      ProductLineListSnoc(ps);
      UnlinesSnoc(ProductLineList(init), line);
    }
  }

  lemma ProductLineListSnoc(ps: seq<Product>)
    requires ps != []
    ensures ProductLineList(ps) == ProductLineList(ps[..|ps| - 1]) + [ProductLine(ps[|ps| - 1])]
  {
  }

  lemma NatToStringSingleLine(n: nat)
    ensures NoNewline(NatToString(n))
  {
    var s := NatToString(n);
    forall i | 0 <= i < |s| ensures s[i] != '\n' {
      assert IsDigit(s[i]);
    }
  }

  lemma NoNewlineConcat(a: string, b: string)
    requires NoNewline(a) && NoNewline(b)
    ensures NoNewline(a + b)
  {
    forall i | 0 <= i < |a + b| ensures (a + b)[i] != '\n' {
      if i < |a| { assert (a + b)[i] == a[i]; } else { assert (a + b)[i] == b[i - |a|]; }
    }
  }

  lemma ProductLineSingleLine(p: Product)
    requires NoNewline(p.displayName) && NoNewline(p.description)
    ensures NoNewline(ProductLine(p))
  {
    NatToStringSingleLine(if p.capacity < 0 then -p.capacity else p.capacity);
    var c := IntToString(p.capacity);
    assert NoNewline(c) by {
      if p.capacity < 0 { NoNewlineConcat("-", NatToString(-p.capacity)); }
    }
    var a := "- " + p.displayName;
    NoNewlineConcat("- ", p.displayName);
    NoNewlineConcat(a, ": ");
    NoNewlineConcat(a + ": ", p.description);
    NoNewlineConcat(a + ": " + p.description, " (Capacity: ");
    NoNewlineConcat(a + ": " + p.description + " (Capacity: ", c);
    NoNewlineConcat(a + ": " + p.description + " (Capacity: " + c, ")");
  }

  lemma ListingLines(header: string, ps: seq<Product>)
    requires NoNewline(header)
    ensures SingleLineProducts(ps) ==>
      SplitLines(header + "\n" + Unlines(ProductLineList(ps))) == [header] + ProductLineList(ps)
  {
    if SingleLineProducts(ps) {
      var ls := [header] + ProductLineList(ps);
      forall k | 0 <= k < |ls| ensures NoNewline(ls[k]) {
        if k > 0 {
          ProductLineSingleLine(ps[k - 1]);
        }
      }
      assert ls[1..] == ProductLineList(ps);
      SplitLinesOfUnlines(ls);
    }
  }

  /** One provider error's line, without its line feed. */
  function ErrorLine(e: ProviderError): string {
    "- *" + e.title + "* "
  }

  function ErrorLineList(es: seq<ProviderError>): (ls: seq<string>)
    ensures |ls| == |es| && forall i :: 0 <= i < |es| ==> ls[i] == ErrorLine(es[i])
  {
    seq(|es|, i requires 0 <= i < |es| => ErrorLine(es[i]))
  }

  /**
   * `format_response_errors` as evidently intended: a header line and one
   * line per provider error, each naming the error's title, in order.
   */
  function FormatResponseErrors(es: seq<ProviderError>): (r: string)
    ensures (forall i :: 0 <= i < |es| ==> NoNewline(es[i].title)) ==>
      var ls := SplitLines(r);
      && |ls| == |es| + 1
      && ls[0] == ErrorsHeader
      && forall i :: 0 <= i < |es| ==> ls[i + 1] == "- *" + es[i].title + "* "
  {
    var ls := [ErrorsHeader] + ErrorLineList(es);
    ErrorListingLines(es);
    Unlines(ls)
  }

  lemma ErrorListingLines(es: seq<ProviderError>)
    ensures (forall i :: 0 <= i < |es| ==> NoNewline(es[i].title)) ==>
      SplitLines(Unlines([ErrorsHeader] + ErrorLineList(es))) == [ErrorsHeader] + ErrorLineList(es)
  {
    var ls := [ErrorsHeader] + ErrorLineList(es);
    if forall i :: 0 <= i < |es| ==> NoNewline(es[i].title) {
      forall k | 0 <= k < |ls| ensures NoNewline(ls[k]) {
        if k > 0 {
          assert ls[k] == ErrorLine(es[k - 1]);
        }
      }
      SplitLinesOfUnlines(ls);
    }
  }

  /**
   * `format_response_errors` as written: the loop builds the message in a
   * local, but the method's value is that of `each`, which is the errors
   * list it was given.
   */
  function FormatResponseErrorsAsWritten(es: seq<ProviderError>): (r: Reply)
    ensures r.ErrorArray? && r.errors == es
  {
    ErrorArray(es)
  }

  /** As written, the reply is never the message the loop built. */
  lemma ResponseErrorsAsWrittenLosesMessage(es: seq<ProviderError>)
    ensures FormatResponseErrorsAsWritten(es) != Text(FormatResponseErrors(es))
  {
  }
}

=== FILE: numerals.dfy ===
/**
 * Decimal text of numbers: Ruby's `Integer#to_s`, `Float#to_s` for surge
 * multipliers (kept as whole hundredths), and `String#to_f`, which reads the
 * leading decimal number of a text and ignores whatever follows it.
 */
module Numerals {

  predicate IsDigit(c: char) {
    '0' <= c <= '9'
  }

  predicate AllDigits(s: string) {
    forall i :: 0 <= i < |s| ==> IsDigit(s[i])
  }

  function Digit(d: nat): (c: char)
    requires d < 10
    ensures IsDigit(c)
  {
    ('0' as int + d) as char
  }

  function DigitValue(c: char): (d: nat)
    requires IsDigit(c)
    ensures d < 10 && Digit(d) == c
  {
    c as int - '0' as int
  }

  function Pow10(k: nat): (p: nat)
    ensures p >= 1
  {
    if k == 0 then 1 else 10 * Pow10(k - 1)
  }

  /** The number a string of decimal digits denotes (0 for the empty string). */
  function DigitsValue(s: string): nat
    requires AllDigits(s)
  {
    if s == [] then 0 else DigitsValue(s[..|s| - 1]) * 10 + DigitValue(s[|s| - 1])
  }

  /** `Integer#to_s` for a natural number: its shortest decimal digits. */
  function NatToString(n: nat): (r: string)
    ensures r != [] && AllDigits(r)
    ensures |r| > 1 ==> r[0] != '0'
  {
    if n < 10 then [Digit(n)] else NatToString(n / 10) + [Digit(n % 10)]
  }

  /** `Integer#to_s`: a minus sign, when negative, before the digits of the magnitude. */
  function IntToString(i: int): (r: string)
    ensures i >= 0 ==> r == NatToString(i)
    ensures i < 0 ==> r == "-" + NatToString(-i)
  {
    if i < 0 then "-" + NatToString(-i) else NatToString(i)
  }

  /** Reading the digits `NatToString` writes gives back the number. */
  lemma {:induction false} DigitsValueOfNatToString(n: nat)
    ensures DigitsValue(NatToString(n)) == n
  {
    if n >= 10 {
      var s := NatToString(n);
      assert s[..|s| - 1] == NatToString(n / 10);
      DigitsValueOfNatToString(n / 10);
    }
  }

  /** The value of two digit strings written one after the other. */
  lemma {:induction false} DigitsValueOfConcat(a: string, b: string)
    requires AllDigits(a) && AllDigits(b)
    ensures AllDigits(a + b)
    ensures DigitsValue(a + b) == DigitsValue(a) * Pow10(|b|) + DigitsValue(b)
    decreases |b|
  {
    if b == [] {
      assert a + b == a;
    } else {
      var b' := b[..|b| - 1];
      var ab := a + b;
      var d := DigitValue(b[|b| - 1]);
      assert ab[..|ab| - 1] == a + b';
      assert ab[|ab| - 1] == b[|b| - 1];
      DigitsValueOfConcat(a, b');
      var x, y, p := DigitsValue(a), DigitsValue(b'), Pow10(|b'|);
      assert DigitsValue(ab) == DigitsValue(a + b') * 10 + d;
      assert DigitsValue(b) == y * 10 + d;
      assert Pow10(|b|) == 10 * p;
      ShiftDigit(x, p, y, d);
    }
  }

  lemma ShiftDigit(x: int, p: int, y: int, d: int)
    ensures (x * p + y) * 10 + d == x * (10 * p) + (y * 10 + d)
  {
  }

  lemma Recombine(q: int, p: int, v: int, r: int)
    requires v * 100 == r * p
    ensures (q * p + v) * 100 == (q * 100 + r) * p
  {
  }

  /** The digits after the point of `Float#to_s` for a fraction of `f` hundredths. */
  function FractionDigits(f: nat): (r: string)
    requires f < 100
    ensures AllDigits(r) && 1 <= |r| <= 2
    ensures DigitsValue(r) * 100 == f * Pow10(|r|)
    ensures |r| == 1 <==> f % 10 == 0
    ensures |r| == 2 ==> r[1] != '0'
  {
    if f == 0 then "0"
    else if f % 10 == 0 then [Digit(f / 10)]
    else [Digit(f / 10), Digit(f % 10)]
  }

  /** A text written in three parts reads back part by part. */
  lemma ConcatParts(a: string, b: string, c: string)
    ensures |a + b + c| == |a| + |b| + |c|
    ensures (a + b + c)[..|a|] == a
    ensures (a + b + c)[|a|..|a| + |b|] == b
    ensures (a + b + c)[|a| + |b|..] == c
  {
  }

  /** A slice of the second part of a text is a slice of that part. */
  lemma SliceOfTail(x: string, y: string, i: nat, j: nat)
    requires i <= j <= |y|
    ensures (x + y)[|x| + i..|x| + j] == y[i..j]
  {
  }

  /** The last digit of the hundredths is the last digit of the number. */
  lemma LastDigitOfHundredths(h: nat)
    ensures (h % 100) % 10 == h % 10
  {
  }

  /** The second fraction digit, found in the whole text. */
  lemma LastFractionDigit(x: string, frac: string)
    ensures |frac| == 2 ==> (x + frac)[|x| + 1] == frac[1]
  {
  }

  /**
   * `Float#to_s` of a multiplier of `h` hundredths, such as "1.25", "2.5" or
   * "3.0": the whole units in shortest digits, a point, and one or two
   * fraction digits that read back as the hundredths, the second only when
   * it is not zero.
   */
  function RenderHundredths(h: nat): (r: string)
    ensures var k := |NatToString(h / 100)|;
      && k + 2 <= |r| <= k + 3
      && (|r| == k + 2 <==> h % 10 == 0)
      && (|r| == k + 3 ==> r[k + 2] != '0')
      && r[k] == '.'
      && AllDigits(r[..k]) && DigitsValue(r[..k]) == h / 100
      && (k > 1 ==> r[0] != '0')
      && AllDigits(r[k + 1..]) && DigitsValue(r[k + 1..]) * 100 == (h % 100) * Pow10(|r| - k - 1)
  {
    var whole := NatToString(h / 100);
    var frac := FractionDigits(h % 100);
    ConcatParts(whole, ".", frac);
    DigitsValueOfNatToString(h / 100);
    LastFractionDigit(whole + ".", frac);
    LastDigitOfHundredths(h);
    whole + "." + frac
  }

  /** The text of a multiplier starts with a digit and holds only digits and its point. */
  lemma RenderedHundredthsCharacters(h: nat)
    ensures var r := RenderHundredths(h);
      && r != [] && IsDigit(r[0])
      && forall i :: 0 <= i < |r| ==> IsDigit(r[i]) || r[i] == '.'
  {
    var whole := NatToString(h / 100);
    var frac := FractionDigits(h % 100);
    var r := RenderHundredths(h);
    assert r == whole + "." + frac;
    forall i | 0 <= i < |r| ensures IsDigit(r[i]) || r[i] == '.' {
      if i < |whole| { assert r[i] == whole[i]; }
      else if i > |whole| { assert r[i] == frac[i - |whole| - 1]; }
    }
  }

  /** A decimal number read from text: its sign, its digits and how many of them follow the point. */
  datatype Decimal = Decimal(negative: bool, digits: string, scale: nat)

  /** Length of the run of digits `s` starts with. */
  function DigitRun(s: string): (n: nat)
    ensures n <= |s| && AllDigits(s[..n])
    ensures n == |s| || !IsDigit(s[n])
  {
    if s != [] && IsDigit(s[0]) then
      var n := 1 + DigitRun(s[1..]);
      assert s[..n] == [s[0]] + s[1..][..n - 1];
      n
    else 0
  }

  /** The text after an optional leading sign. */
  function Unsigned(s: string): (t: string)
    ensures |t| <= |s|
  {
    if s != [] && (s[0] == '-' || s[0] == '+') then s[1..] else s
  }

  /**
   * `String#to_f`: an optional sign, a run of digits and, when a point is
   * followed by a digit, the run of digits after the point; anything else
   * ends the number, and a text with no digits reads as zero.
   */
  function ToF(s: string): (d: Decimal)
    ensures AllDigits(d.digits) && d.scale <= |d.digits| <= |s|
    ensures d.negative <==> s != [] && s[0] == '-'
    ensures var t := Unsigned(s); var w := |d.digits| - d.scale;
      && w <= |t|
      && d.digits[..w] == t[..w]
      && (w == |t| || !IsDigit(t[w]))
      && (d.scale == 0 ==> !(w + 1 < |t| && t[w] == '.' && IsDigit(t[w + 1])))
      && (d.scale > 0 ==>
            && w + 1 + d.scale <= |t| && t[w] == '.'
            && d.digits[w..] == t[w + 1..w + 1 + d.scale]
            && (w + 1 + d.scale == |t| || !IsDigit(t[w + 1 + d.scale])))
  {
    var negative := s != [] && s[0] == '-';
    var t := Unsigned(s);
    var w := DigitRun(t);
    var after := t[w..];
    if |after| >= 2 && after[0] == '.' && IsDigit(after[1]) then
      var f := DigitRun(after[1..]);
      var fraction := after[1..][..f];
      assert AllDigits(t[..w] + fraction);
      Decimal(negative, t[..w] + fraction, f)
    else
      Decimal(negative, t[..w], 0)
  }

  /** The decimal read from text equals the multiplier of `h` hundredths (minus zero equals zero). */
  predicate DecimalEquals(d: Decimal, h: nat)
    requires AllDigits(d.digits)
  {
    && (!d.negative || DigitsValue(d.digits) == 0)
    && DigitsValue(d.digits) * 100 == h * Pow10(d.scale)
  }

  /** `to_f` of whole digits, a point and fraction digits reads exactly those digits. */
  lemma ToFOfPointed(whole: string, frac: string)
    requires whole != [] && AllDigits(whole)
    requires frac != [] && AllDigits(frac)
    ensures ToF(whole + "." + frac) == Decimal(false, whole + frac, |frac|)
  {
    var s := whole + ("." + frac);
    assert whole + "." + frac == s;
    assert s[0] == whole[0];
    DigitRunOfConcat(whole, "." + frac);
    assert s[..|whole|] == whole;
    var after := s[|whole|..];
    assert after == "." + frac;
    assert after[1..] == frac;
    assert frac == frac + [];
    DigitRunOfConcat(frac, []);
    assert frac[..|frac|] == frac;
  }

  /** The text of `h` hundredths contains a point and reads back, through `to_f`, as `h` hundredths. */
  lemma RenderedHundredthsReadBack(h: nat)
    ensures '.' in RenderHundredths(h)
    ensures DecimalEquals(ToF(RenderHundredths(h)), h)
  {
    var whole := NatToString(h / 100);
    var frac := FractionDigits(h % 100);
    assert RenderHundredths(h)[|whole|] == '.';
    ToFOfPointed(whole, frac);
    DigitsValueOfConcat(whole, frac);
    DigitsValueOfNatToString(h / 100);
    var p := Pow10(|frac|);
    var q, r := h / 100, h % 100;
    assert DigitsValue(whole + frac) == q * p + DigitsValue(frac);
    Recombine(q, p, DigitsValue(frac), r);
    assert q * 100 + r == h;
  }

  lemma {:induction false} DigitRunOfConcat(a: string, b: string)
    requires AllDigits(a)
    requires b == [] || !IsDigit(b[0])
    ensures DigitRun(a + b) == |a|
    decreases |a|
  {
    if a == [] {
      assert a + b == b;
    } else {
      assert (a + b)[1..] == a[1..] + b;
      DigitRunOfConcat(a[1..], b);
    }
  }

  /** A text equals at most one multiplier: two multipliers that read the same are the same. */
  lemma DecimalEqualsUnique(d: Decimal, h1: nat, h2: nat)
    requires AllDigits(d.digits)
    requires DecimalEquals(d, h1) && DecimalEquals(d, h2)
    ensures h1 == h2
  {
    assert h1 * Pow10(d.scale) == h2 * Pow10(d.scale);
  }

  /** Different multipliers are written differently. */
  lemma RenderHundredthsInjective(h1: nat, h2: nat)
    requires RenderHundredths(h1) == RenderHundredths(h2)
    ensures h1 == h2
  {
    RenderedHundredthsReadBack(h1);
    RenderedHundredthsReadBack(h2);
    DecimalEqualsUnique(ToF(RenderHundredths(h1)), h1, h2);
  }
}

=== FILE: rides.dfy ===
/**
 * The `ride` / `accept` surge-confirmation workflow. `ride` plans a trip,
 * records it, and either books it at once or, under surge pricing, asks for
 * a confirmation; a later `accept` finds the user's most recent record and
 * books it with the stored confirmation id, unless the estimate is more than
 * five minutes old, in which case the whole `ride` is run again.
 *
 * The ride store is the list of records in creation order; a record's
 * `updatedAt` is in seconds.
 */
module Rides {
  import opened Wrappers
  import opened RubyText
  import opened Numerals
  import opened Api
  import opened Messages

  /** A multiplier of 1.0, in hundredths: the stored default, meaning no surge. */
  const NoSurge: nat := 100

  /** From a multiplier of 2.0 up, `accept` wants the multiplier typed back. */
  const StatedFrom: nat := 200

  /** How long, in seconds, a surge estimate may be booked without estimating again. */
  const FreshFor: int := 300

  /** A persisted ride: the trip, the surge fields, the booking id once booked, and the last update time. */
  datatype RideRecord = RideRecord(
    user: string,
    origin: Coord,
    destination: Coord,
    product: string,
    surge: nat,
    confirmationId: Option<string>,
    requestId: Option<string>,
    updatedAt: int)

  /** A confirmation id that Rails calls `blank?`: nil or only whitespace. */
  predicate BlankId(id: Option<string>) {
    id.None? || Blank(id.value)
  }

  /** What `ride` keeps true of every record: a surge multiplier other than 1.0 only with a confirmation id. */
  predicate ValidRecord(r: RideRecord) {
    && (r.confirmationId.None? ==> r.surge == NoSurge)
    && (r.confirmationId.Some? ==> !Blank(r.confirmationId.value))
  }

  predicate ValidStore(store: seq<RideRecord>) {
    forall i :: 0 <= i < |store| ==> ValidRecord(store[i])
  }

  /** No record in the store is dated after `now`. */
  predicate NotAfter(store: seq<RideRecord>, now: int) {
    forall i :: 0 <= i < |store| ==> store[i].updatedAt <= now
  }

  /**
   * `Ride.where(user_id:).order(:updated_at).last`: the user's record with the
   * latest update time. The database does not order records updated at the
   * same time; the model chooses the one created last.
   */
  function LatestFor(store: seq<RideRecord>, user: string): (r: Option<RideRecord>)
    ensures r.None? <==> forall i :: 0 <= i < |store| ==> store[i].user != user
    ensures r.Some? ==> r.value in store && r.value.user == user
    ensures r.Some? ==> forall i :: 0 <= i < |store| && store[i].user == user ==> store[i].updatedAt <= r.value.updatedAt
  {
    if store == [] then None
    else
      var init := store[..|store| - 1];
      var last := store[|store| - 1];
      var earlier := LatestFor(init, user);
      assert forall i :: 0 <= i < |init| ==> init[i] == store[i];
      if last.user != user then earlier
      else if earlier.Some? && earlier.value.updatedAt > last.updatedAt then earlier
      else Some(last)
  }

  /** A record added by the user at a time no earlier than any other is the one `accept` finds. */
  lemma LatestAfterAppend(store: seq<RideRecord>, rec: RideRecord)
    requires NotAfter(store, rec.updatedAt)
    ensures LatestFor(store + [rec], rec.user) == Some(rec)
  {
    var s := store + [rec];
    assert s[..|s| - 1] == store;
  }

  /** What `ride` and `accept` give back, the store after them, and every booking request they sent. */
  datatype Outcome = Outcome(reply: Reply, store: seq<RideRecord>, requests: seq<BookRequest>)

  /** `resolve_address` destructured into a latitude and a longitude: a miss leaves the error text and nil. */
  function Resolve(services: Services, address: string): (c: Coord)
    ensures services.geocode(address).Some? ==> c == services.geocode(address).value
    ensures services.geocode(address).None? ==> c.lat == LocationNotFoundError && c.lng == []
  {
    match services.geocode(address)
    case Some(c) => c
    case None => Coord(LocationNotFoundError, [])
  }

  /** The first check of `ride` as written: with no argument, `nil.include?` raises. */
  function RideGuardAsWritten(arg: Option<string>): (r: Option<Reply>)
    ensures arg.None? ==> r == Some(Raised(NoMethodError("include?")))
    ensures arg.Some? ==> (r.None? <==> Contains(arg.value, " to "))
    ensures r.Some? && arg.Some? ==> r.value == Text(RideRequestFormatError)
  {
    match arg
    case None => Some(Raised(NoMethodError("include?")))
    case Some(s) => if Contains(s, " to ") then None else Some(Text(RideRequestFormatError))
  }

  /** The first check of `ride` as evidently intended: a missing argument is a format error too. */
  function RideGuard(arg: Option<string>): (r: Option<Reply>)
    ensures r.None? <==> arg.Some? && Contains(arg.value, " to ")
    ensures r.Some? ==> r.value == Text(RideRequestFormatError)
  {
    if arg.Some? && Contains(arg.value, " to ") then None else Some(Text(RideRequestFormatError))
  }

  /** "/uber ride" with no argument raises as written; the corrected check answers with the format help. */
  lemma RideWithoutArgument()
    ensures RideGuardAsWritten(None) == Some(Raised(NoMethodError("include?")))
    ensures RideGuard(None) == Some(Text(RideRequestFormatError))
  {
  }

  /**
   * The two places of a ride request: the first two fields of `split("to")`,
   * stripped, that is the text before the first "to" and the text between
   * it and the next "to" (or the end).
   */
  function Endpoints(s: string): (r: (string, string))
    requires Contains(s, " to ")
    ensures Find(s, "to", 0).Some?
    ensures var i := Find(s, "to", 0).value;
      && i + 2 <= |s|
      && r.0 == Strip(s[..i])
      && r.1 == Strip(FieldBefore(s[i + 2..], "to"))
  {
    SplitAroundTo(s);
    var fields := RubySplit(s, "to");
    var fs := SplitFields(s, "to");
    assert fields == fs[..|fields|];
    var i := Find(s, "to", 0).value;
    SplitFieldsStep(s, "to", i);
    SplitFieldsHead(s[i + 2..], "to");
    (Strip(fields[0]), Strip(fields[1]))
  }

  /** Where from, where to and with which product a ride request travels. */
  datatype Trip = Trip(origin: Coord, destination: Coord, product: string)

  /**
   * Geocode both places and look up the default product at the origin; the
   * product lookup is a provider call and may raise.
   */
  function PlanTrip(services: Services, s: string): (r: Call<Trip>)
    requires Contains(s, " to ")
    ensures var origin := Resolve(services, Endpoints(s).0);
      && (r.Threw? <==> services.defaultProduct(origin).Threw?)
      && (r.Returned? ==>
            && r.value.origin == origin
            && r.value.destination == Resolve(services, Endpoints(s).1)
            && r.value.product == services.defaultProduct(origin).value)
  {
    var (from, to) := Endpoints(s);
    var origin := Resolve(services, from);
    match services.defaultProduct(origin)
    case Threw => Threw
    case Returned(product) => Returned(Trip(origin, Resolve(services, to), product))
  }

  /** The record `Ride.create!` writes: the surge fields only when the estimate has a confirmation id. */
  function NewRecord(ctx: Context, trip: Trip, est: Estimate): (r: RideRecord)
    ensures ValidRecord(r)
    ensures r.user == ctx.user && r.updatedAt == ctx.now && r.requestId.None?
    ensures r.origin == trip.origin && r.destination == trip.destination && r.product == trip.product
    ensures r.confirmationId.Some? <==> !BlankId(est.confirmationId)
    ensures r.confirmationId.Some? ==> r.confirmationId == est.confirmationId && r.surge == est.surge
  {
    if BlankId(est.confirmationId) then
      RideRecord(ctx.user, trip.origin, trip.destination, trip.product, NoSurge, None, None, ctx.now)
    else
      RideRecord(ctx.user, trip.origin, trip.destination, trip.product, est.surge, est.confirmationId, None, ctx.now)
  }

  /**
   * `ride` with no surge: book at once, without a confirmation id, and keep
   * the booking id on the record just created; list the provider's errors
   * instead when it reports any.
   */
  function BookNow(ctx: Context, store: seq<RideRecord>, rec: RideRecord): (r: Outcome)
    ensures var req := BookRequest(rec.origin, rec.destination, rec.product, None);
      var booking := ctx.services.requestRide(req);
      && r.requests == [req]
      && (booking.Threw? ==> r == Outcome(Raised(ServiceError), store + [rec], [req]))
      && (booking.Returned? && booking.value.errors.Some? ==>
            r == Outcome(Text(FormatResponseErrors(booking.value.errors.value)), store + [rec], [req]))
      && (booking.Returned? && booking.value.errors.None? ==>
            && r.reply == Text(RideConfirmation(booking.value.eta))
            && r.store == store + [rec.(requestId := Some(booking.value.requestId))])
  {
    var req := BookRequest(rec.origin, rec.destination, rec.product, None);
    match ctx.services.requestRide(req)
    case Threw => Outcome(Raised(ServiceError), store + [rec], [req])
    case Returned(booking) =>
      if booking.errors.Some? then
        Outcome(Text(FormatResponseErrors(booking.errors.value)), store + [rec], [req])
      else
        Outcome(Text(RideConfirmation(booking.eta)), store + [rec.(requestId := Some(booking.requestId))], [req])
  }

  /**
   * `ride` once the estimate is in: record the trip, then by the estimate's
   * multiplier ask for `accept <multiplier>` (above 2.0) or for a bare
   * `accept` (above 1.0) without booking, or book at once.
   */
  function AfterEstimate(ctx: Context, store: seq<RideRecord>, trip: Trip, est: Estimate): (r: Outcome)
    ensures |r.store| == |store| + 1 && r.store[..|store|] == store
    ensures var rec := r.store[|store|];
      && ValidRecord(rec)
      && rec.user == ctx.user && rec.updatedAt == ctx.now
      && rec.origin == trip.origin && rec.destination == trip.destination && rec.product == trip.product
      && (rec.confirmationId.Some? <==> !BlankId(est.confirmationId))
      && (rec.confirmationId.Some? ==> rec.confirmationId == est.confirmationId && rec.surge == est.surge)
    ensures est.surge > 200 ==>
      r.requests == [] && r.store[|store|].requestId.None? && r.reply == Text(SurgeAcceptWith(est.surge))
    ensures 100 < est.surge <= 200 ==>
      r.requests == [] && r.store[|store|].requestId.None? && r.reply == Text(SurgeAccept(est.surge))
    ensures est.surge <= 100 ==> r == BookNow(ctx, store, NewRecord(ctx, trip, est))
    ensures forall k :: 0 <= k < |r.requests| ==> r.requests[k].confirmationId.None?
  {
    var rec := NewRecord(ctx, trip, est);
    var created := store + [rec];
    assert created[..|store|] == store;
    if est.surge > 200 then
      Outcome(Text(SurgeAcceptWith(est.surge)), created, [])
    else if est.surge > 100 then
      Outcome(Text(SurgeAccept(est.surge)), created, [])
    else
      var r := BookNow(ctx, store, rec);
      assert (store + [rec.(requestId := r.store[|store|].requestId)])[..|store|] == store;
      r
  }

  /**
   * `ride` once the trip is planned: ask for the estimate; a raising
   * estimate raises and records nothing.
   */
  function EstimateTrip(ctx: Context, store: seq<RideRecord>, trip: Trip): (r: Outcome)
    ensures |store| <= |r.store| <= |store| + 1 && r.store[..|store|] == store
    ensures ValidStore(store) ==> ValidStore(r.store)
    ensures forall k :: 0 <= k < |r.requests| ==> r.requests[k].confirmationId.None?
    ensures var est := ctx.services.estimate(trip.origin, trip.destination, trip.product);
      && (est.Threw? ==> r == Outcome(Raised(ServiceError), store, []))
      && (est.Returned? ==> r == AfterEstimate(ctx, store, trip, est.value))
  {
    match ctx.services.estimate(trip.origin, trip.destination, trip.product)
    case Threw => Outcome(Raised(ServiceError), store, [])
    case Returned(est) =>
      var r := AfterEstimate(ctx, store, trip, est);
      assert r.store == r.store[..|store|] + [r.store[|store|]];
      r
  }

  /**
   * `ride`: check the format, plan the trip and ask for an estimate; a
   * raising product lookup or estimate raises and records nothing.
   */
  function Ride(ctx: Context, store: seq<RideRecord>, arg: Option<string>): (r: Outcome)
    ensures RideGuard(arg).Some? ==> r == Outcome(Text(RideRequestFormatError), store, [])
    ensures |store| <= |r.store| <= |store| + 1 && r.store[..|store|] == store
    ensures ValidStore(store) ==> ValidStore(r.store)
    ensures forall k :: 0 <= k < |r.requests| ==> r.requests[k].confirmationId.None?
    ensures RideGuard(arg).None? ==>
      var plan := PlanTrip(ctx.services, arg.value);
      && (plan.Threw? ==> r == Outcome(Raised(ServiceError), store, []))
      && (plan.Returned? ==> r == EstimateTrip(ctx, store, plan.value))
  {
    match RideGuard(arg)
    case Some(early) => Outcome(early, store, [])
    case None =>
      match PlanTrip(ctx.services, arg.value)
      case Threw => Outcome(Raised(ServiceError), store, [])
      case Returned(trip) => EstimateTrip(ctx, store, trip)
  }

  /**
   * The stated multiplier passes `accept`'s check: it is present, contains a
   * point, and `to_f` reads it as the stored multiplier. The text a surge
   * reply shows always passes.
   */
  function StatedMatches(stated: Option<string>, h: nat): (b: bool)
    ensures stated == Some(RenderHundredths(h)) ==> b
    ensures b ==> stated.Some? && '.' in stated.value
  {
    RenderedHundredthsReadBack(h);
    && stated.Some?
    && '.' in stated.value
    && DecimalEquals(ToF(stated.value), h)
  }

  /** A stated multiplier passes the check for at most one stored multiplier. */
  lemma StatedMatchesOne(stated: Option<string>, h1: nat, h2: nat)
    requires StatedMatches(stated, h1) && StatedMatches(stated, h2)
    ensures h1 == h2
  {
    var d := ToF(stated.value);
    DecimalEqualsUnique(d, h1, h2);
  }

  /** `"#{lat}, #{lng}"`: a stored coordinate as `accept` writes it back into a ride request. */
  function LocationText(c: Coord): string {
    c.lat + ", " + c.lng
  }

  /**
   * The ride request `accept` re-runs for a stale record: the two stored
   * locations around " to ", so the re-run passes `ride`'s format check.
   */
  function RerunText(rec: RideRecord): (r: string)
    ensures RideGuard(Some(r)).None?
    ensures |r| == |LocationText(rec.origin)| + 4 + |LocationText(rec.destination)|
    ensures var o := LocationText(rec.origin);
      && r[..|o|] == o
      && r[|o|..|o| + 4] == " to "
      && r[|o| + 4..] == LocationText(rec.destination)
  {
    var o := LocationText(rec.origin);
    var r := o + " to " + LocationText(rec.destination);
    assert OccursAt(r, |o|, " to ") by { assert r[|o|..|o| + 4] == " to "; }
    OccursThenContains(r, |o|, " to ");
    r
  }

  /** More than five minutes have passed since the record was last updated. */
  predicate Stale(rec: RideRecord, now: int) {
    now - rec.updatedAt > FreshFor
  }

  /** A record is fresh when it is written, and once stale it stays stale. */
  lemma StaleStaysStale(rec: RideRecord, now: int, later: int)
    requires now <= later
    ensures !Stale(rec, rec.updatedAt)
    ensures Stale(rec, now) ==> Stale(rec, later)
  {
  }

  /**
   * The booking step of `accept` as written: `request_ride!` hands back the
   * parsed JSON body, a Hash, and calling `code` on it raises, so every
   * booking that does not itself raise ends in NoMethodError.
   */
  function BookWithConfirmationAsWritten(booking: Call<Booking>): (r: Reply)
    ensures booking.Threw? ==> r == Text(RequestFailed)
    ensures booking.Returned? ==> r == Raised(NoMethodError("code"))
  {
    match booking
    case Threw => Text(RequestFailed)
    case Returned(_) => Raised(NoMethodError("code"))
  }

  /** As written, even a booking the provider accepted with status 200 is reported as an exception. */
  lemma BookedRideReportedAsFailure(b: Booking)
    requires b.status == 200
    ensures BookWithConfirmationAsWritten(Returned(b)) != Text(RideConfirmation(b.eta))
  {
  }

  /**
   * The booking step of `accept` as evidently intended: status 200 or 202
   * confirms with the ETA, any other status or a raised call is a failure.
   */
  function BookWithConfirmation(booking: Call<Booking>): (r: Reply)
    ensures booking.Threw? ==> r == Text(RequestFailed)
    ensures booking.Returned? ==>
      (booking.value.status in {200, 202} <==> r == Text(RideConfirmation(booking.value.eta)))
    ensures r == Text(RequestFailed) || r == Text(RideConfirmation(booking.value.eta))
  {
    match booking
    case Threw => Text(RequestFailed)
    case Returned(b) =>
      ConfirmationIsNotFailure(b.eta);
      if b.status == 200 || b.status == 202 then Text(RideConfirmation(b.eta)) else Text(RequestFailed)
  }

  /**
   * `accept`: find the user's latest record; at a multiplier of 2.0 or more
   * insist on the stated multiplier; re-run `ride` from the stored
   * coordinates when the record is stale; otherwise book with the stored
   * confirmation id.
   */
  function Accept(ctx: Context, store: seq<RideRecord>, stated: Option<string>): (r: Outcome)
    ensures LatestFor(store, ctx.user).None? ==> r == Outcome(Text(NoRideToConfirm), store, [])
    ensures ValidStore(store) ==> ValidStore(r.store)
    ensures LatestFor(store, ctx.user).Some? ==>
      var rec := LatestFor(store, ctx.user).value;
      && (rec.surge >= StatedFrom && !StatedMatches(stated, rec.surge) ==>
            r == Outcome(Text(RetryAccept(rec.surge)), store, []))
      && ((rec.surge < StatedFrom || StatedMatches(stated, rec.surge)) && Stale(rec, ctx.now) ==>
            && r == Ride(ctx, store, Some(RerunText(rec)))
            && forall k :: 0 <= k < |r.requests| ==> r.requests[k].confirmationId.None?)
      && ((rec.surge < StatedFrom || StatedMatches(stated, rec.surge)) && !Stale(rec, ctx.now) ==>
            var req := BookRequest(rec.origin, rec.destination, rec.product, rec.confirmationId);
            && r.store == store
            && r.requests == [req]
            && r.reply == BookWithConfirmation(ctx.services.requestRide(req)))
  {
    match LatestFor(store, ctx.user)
    case None => Outcome(Text(NoRideToConfirm), store, [])
    case Some(rec) =>
      if rec.surge >= StatedFrom && !StatedMatches(stated, rec.surge) then
        Outcome(Text(RetryAccept(rec.surge)), store, [])
      else if Stale(rec, ctx.now) then
        Ride(ctx, store, Some(RerunText(rec)))
      else
        var req := BookRequest(rec.origin, rec.destination, rec.product, rec.confirmationId);
        Outcome(BookWithConfirmation(ctx.services.requestRide(req)), store, [req])
  }
}

=== FILE: text.dfy ===
/**
 * The part of Ruby's String behaviour the command interpreter relies on:
 * `blank?`, `downcase`, `split(" ", 2)`, `include?`, `split("to")`, `strip`,
 * and the lines a response text is made of. Only ASCII whitespace and ASCII
 * letters are given a special meaning.
 */
module RubyText {
  import opened Wrappers

  /** Ruby's ASCII whitespace: space, tab, line feed, vertical tab, form feed, carriage return. */
  predicate IsSpace(c: char) {
    c == ' ' || c == '\t' || c == '\n' || c == '\U{0B}' || c == '\U{0C}' || c == '\r'
  }

  /** `blank?` on a string: nothing but whitespace (the empty string included). */
  predicate Blank(s: string) {
    forall i :: 0 <= i < |s| ==> IsSpace(s[i])
  }

  predicate NoSpace(s: string) {
    forall i :: 0 <= i < |s| ==> !IsSpace(s[i])
  }

  function LowerChar(c: char): char {
    if 'A' <= c <= 'Z' then (c as int + 32) as char else c
  }

  /** `downcase`, on ASCII letters. */
  function Lower(s: string): (r: string)
    ensures |r| == |s|
    ensures forall i :: 0 <= i < |s| ==> r[i] == LowerChar(s[i])
  {
    if s == [] then [] else [LowerChar(s[0])] + Lower(s[1..])
  }

  /** Text without upper-case ASCII letters is its own lower case. */
  lemma LowerWithoutCapitals(s: string)
    requires forall i :: 0 <= i < |s| ==> !('A' <= s[i] <= 'Z')
    ensures Lower(s) == s
  {
  }

  /** `s` with its leading whitespace removed. */
  function DropSpaces(s: string): (r: string)
    ensures |r| <= |s| && r == s[|s| - |r|..]
    ensures Blank(s[..|s| - |r|])
    ensures r == [] || !IsSpace(r[0])
  {
    if s != [] && IsSpace(s[0]) then
      var r := DropSpaces(s[1..]);
      assert s[..|s| - |r|] == [s[0]] + s[1..][..|s| - 1 - |r|];
      r
    else s
  }

  /** Length of the run of non-whitespace characters `s` starts with. */
  function WordLength(s: string): (n: nat)
    ensures n <= |s| && NoSpace(s[..n])
    ensures n == |s| || IsSpace(s[n])
  {
    if s != [] && !IsSpace(s[0]) then
      var n := 1 + WordLength(s[1..]);
      assert s[..n] == [s[0]] + s[1..][..n - 1];
      n
    else 0
  }

  /** The two fields of `split(" ", 2)`: a first word and, when anything follows it, the rest. */
  datatype FirstSplit = FirstSplit(word: string, rest: Option<string>)

  /**
   * Ruby's `s.split(" ", 2)` on a non-blank string: leading whitespace is
   * skipped, the first field is the first run of non-whitespace, and the
   * second field (absent when the word ends the string) is everything after
   * the whitespace run that follows the word, trailing whitespace included.
   */
  function SplitFirstWord(s: string): (r: FirstSplit)
    requires !Blank(s)
    ensures r.word != [] && NoSpace(r.word)
    ensures r.rest.Some? ==> r.rest.value == [] || !IsSpace(r.rest.value[0])
  {
    var t := DropSpaces(s);
    assert t != [] by {
      assert s == s[..|s| - |t|] + t;
    }
    var n := WordLength(t);
    if n == |t| then
      assert t[..n] == t;
      FirstSplit(t, None)
    else
      FirstSplit(t[..n], Some(DropSpaces(t[n..])))
  }

  lemma {:induction false} DropSpacesOfJoin(lead: string, s: string)
    requires Blank(lead)
    requires s == [] || !IsSpace(s[0])
    ensures DropSpaces(lead + s) == s
    decreases |lead|
  {
    if lead == [] {
      assert lead + s == s;
    } else {
      assert (lead + s)[1..] == lead[1..] + s;
      DropSpacesOfJoin(lead[1..], s);
    }
  }

  lemma {:induction false} WordLengthOfJoin(word: string, s: string)
    requires NoSpace(word)
    requires s == [] || IsSpace(s[0])
    ensures WordLength(word + s) == |word|
    decreases |word|
  {
    if word == [] {
      assert word + s == s;
    } else {
      assert (word + s)[1..] == word[1..] + s;
      WordLengthOfJoin(word[1..], s);
    }
  }

  /** A word followed by a whitespace run and a rest splits back into that word and that rest. */
  lemma SplitFirstWordOfJoin(lead: string, word: string, sep: string, rest: string)
    requires Blank(lead) && Blank(sep) && sep != []
    requires word != [] && NoSpace(word)
    requires rest == [] || !IsSpace(rest[0])
    ensures !Blank(lead + word + sep + rest)
    ensures SplitFirstWord(lead + word + sep + rest) == FirstSplit(word, Some(rest))
  {
    var tail := sep + rest;
    var t := word + tail;
    var s := lead + t;
    assert lead + word + sep + rest == s;
    assert s[|lead|] == word[0];
    DropSpacesOfJoin(lead, t);
    WordLengthOfJoin(word, tail);
    assert t[..|word|] == word;
    assert t[|word|..] == tail;
    DropSpacesOfJoin(sep, rest);
  }

  /** A word with nothing after it splits into that word and no rest. */
  lemma SplitFirstWordOfWord(lead: string, word: string)
    requires Blank(lead)
    requires word != [] && NoSpace(word)
    ensures !Blank(lead + word)
    ensures SplitFirstWord(lead + word) == FirstSplit(word, None)
  {
    assert (lead + word)[|lead|] == word[0];
    DropSpacesOfJoin(lead, word);
    assert word == word + [];
    WordLengthOfJoin(word, []);
  }

  /** `pat` occurs in `s` starting at index `i`. */
  predicate OccursAt(s: string, i: nat, pat: string) {
    i + |pat| <= |s| && s[i..i + |pat|] == pat
  }

  /** The first index at or after `from` where `pat` occurs in `s`. */
  function Find(s: string, pat: string, from: nat): (r: Option<nat>)
    ensures r.Some? ==> from <= r.value && OccursAt(s, r.value, pat)
    ensures r.Some? ==> forall j :: from <= j < r.value ==> !OccursAt(s, j, pat)
    ensures r.None? ==> forall j :: from <= j ==> !OccursAt(s, j, pat)
    decreases |s| - from
  {
    if from + |pat| > |s| then None
    else if OccursAt(s, from, pat) then Some(from)
    else Find(s, pat, from + 1)
  }

  /** `s.include?(pat)`. */
  predicate Contains(s: string, pat: string) {
    Find(s, pat, 0).Some?
  }

  /** A text contains whatever occurs in it somewhere. */
  lemma OccursThenContains(s: string, k: nat, pat: string)
    requires OccursAt(s, k, pat)
    ensures Contains(s, pat)
  {
  }

  /** Lower-casing keeps " to " where it was. */
  lemma LowerKeepsSpacedTo(s: string, k: nat)
    requires OccursAt(s, k, " to ")
    ensures OccursAt(Lower(s), k, " to ")
  {
    var lowered := Lower(s);
    var w := s[k..k + 4];
    assert w[0] == s[k] && w[1] == s[k + 1] && w[2] == s[k + 2] && w[3] == s[k + 3];
    assert lowered[k..k + 4] == [lowered[k], lowered[k + 1], lowered[k + 2], lowered[k + 3]];
  }

  /** The fields of `s` between the occurrences of the non-empty `sep`, left to right. */
  function SplitFields(s: string, sep: string): (r: seq<string>)
    requires sep != []
    ensures |r| >= 1
    decreases |s|
  {
    match Find(s, sep, 0)
    case None => [s]
    case Some(i) => [s[..i]] + SplitFields(s[i + |sep|..], sep)
  }

  /** One step of the split: the field before the first separator, then the fields of what follows it. */
  lemma SplitFieldsStep(s: string, sep: string, i: nat)
    requires sep != [] && Find(s, sep, 0) == Some(i)
    ensures i + |sep| <= |s|
    ensures SplitFields(s, sep) == [s[..i]] + SplitFields(s[i + |sep|..], sep)
  {
  }

  /** The fields joined back with the separator between them. */
  function JoinFields(fs: seq<string>, sep: string): string
    requires |fs| >= 1
  {
    if |fs| == 1 then fs[0] else fs[0] + sep + JoinFields(fs[1..], sep)
  }

  /** Splitting loses nothing: joining the fields with the separator gives back the input. */
  lemma {:induction false} JoinSplitFields(s: string, sep: string)
    requires sep != []
    ensures JoinFields(SplitFields(s, sep), sep) == s
    decreases |s|
  {
    match Find(s, sep, 0)
    case None =>
      assert SplitFields(s, sep) == [s];
    case Some(i) =>
      var rest := s[i + |sep|..];
      var fs := SplitFields(s, sep);
      SplitFieldsStep(s, sep, i);
      JoinSplitFields(rest, sep);
      assert fs[1..] == SplitFields(rest, sep);
      assert s[i..i + |sep|] == sep;
      assert s == s[..i] + s[i..i + |sep|] + rest;
      assert JoinFields(fs, sep) == s[..i] + sep + JoinFields(fs[1..], sep);
  }

  /** `fs` without its trailing empty fields. */
  function DropTrailingEmpty(fs: seq<string>): (r: seq<string>)
    ensures |r| <= |fs| && r == fs[..|r|]
    ensures r == [] || r[|r| - 1] != []
    ensures forall j :: |r| <= j < |fs| ==> fs[j] == []
  {
    if fs != [] && fs[|fs| - 1] == [] then
      var r := DropTrailingEmpty(fs[..|fs| - 1]);
      assert fs[..|fs| - 1][..|r|] == fs[..|r|];
      r
    else fs
  }

  /** Ruby's `s.split(sep)` with a non-empty string separator: every field, trailing empty ones dropped. */
  function RubySplit(s: string, sep: string): (r: seq<string>)
    requires sep != []
    ensures r == [] || r[|r| - 1] != []
    ensures r != [] ==> r[0] == FieldBefore(s, sep)
    ensures forall j :: 0 <= j < |r| ==> !Contains(r[j], sep)
  {
    var fs := SplitFields(s, sep);
    SplitFieldsHead(s, sep);
    FieldsHaveNoSeparator(s, sep);
    DropTrailingEmpty(fs)
  }

  /** `s` up to the first occurrence of `pat`, or all of `s` when `pat` does not occur. */
  function FieldBefore(s: string, pat: string): (r: string)
    ensures |r| <= |s| && r == s[..|r|]
    ensures Find(s, pat, 0).Some? ==> |r| == Find(s, pat, 0).value
    ensures Find(s, pat, 0).None? ==> r == s
  {
    match Find(s, pat, 0)
    case None => s
    case Some(i) => s[..i]
  }

  /** The first field of a split is the text before the first separator. */
  lemma SplitFieldsHead(s: string, sep: string)
    requires sep != []
    ensures SplitFields(s, sep)[0] == FieldBefore(s, sep)
  {
  }

  /** The text before the first separator contains no separator. */
  lemma FieldBeforeHasNoSeparator(s: string, sep: string)
    requires sep != []
    ensures !Contains(FieldBefore(s, sep), sep)
  {
    var x := FieldBefore(s, sep);
    if Contains(x, sep) {
      var j := Find(x, sep, 0).value;
      assert s[j..j + |sep|] == x[j..j + |sep|];
      assert OccursAt(s, j, sep);
    }
  }

  /** No field of a split contains the separator. */
  lemma {:induction false} FieldsHaveNoSeparator(s: string, sep: string)
    requires sep != []
    ensures forall j :: 0 <= j < |SplitFields(s, sep)| ==> !Contains(SplitFields(s, sep)[j], sep)
    decreases |s|
  {
    var fs := SplitFields(s, sep);
    SplitFieldsHead(s, sep);
    FieldBeforeHasNoSeparator(s, sep);
    match Find(s, sep, 0)
    case None =>
    case Some(i) =>
      var rest := s[i + |sep|..];
      SplitFieldsStep(s, sep, i);
      FieldsHaveNoSeparator(rest, sep);
      assert fs[1..] == SplitFields(rest, sep);
      forall j | 0 <= j < |fs| ensures !Contains(fs[j], sep) {
        if j > 0 { assert fs[j] == fs[1..][j - 1]; }
      }
  }

  /** `sep` written `n` times. */
  function Repeat(sep: string, n: nat): (r: string)
    ensures |r| == n * |sep|
  {
    if n == 0 then [] else sep + Repeat(sep, n - 1)
  }

  /** Fields that are all empty join into separators only. */
  lemma {:induction false} JoinEmptyFields(fs: seq<string>, sep: string)
    requires |fs| >= 1 && forall j :: 0 <= j < |fs| ==> fs[j] == []
    ensures JoinFields(fs, sep) == Repeat(sep, |fs| - 1)
    decreases |fs|
  {
    if |fs| > 1 {
      JoinEmptyFields(fs[1..], sep);
      assert fs[0] == [];
    }
  }

  /** Joining fields whose tail from `k` on is empty: the first `k` joined, then one separator per empty field. */
  lemma {:induction false} JoinWithEmptyTail(fs: seq<string>, k: nat, sep: string)
    requires 1 <= k <= |fs|
    requires forall j :: k <= j < |fs| ==> fs[j] == []
    ensures JoinFields(fs, sep) == JoinFields(fs[..k], sep) + Repeat(sep, |fs| - k)
    decreases |fs|
  {
    if k == |fs| {
      assert fs[..k] == fs;
    } else if k == 1 {
      JoinEmptyFields(fs[1..], sep);
      assert fs[..1] == [fs[0]];
    } else {
      var tail := fs[1..];
      JoinWithEmptyTail(tail, k - 1, sep);
      assert fs[..k][1..] == tail[..k - 1];
      assert JoinFields(fs[..k], sep) == fs[0] + sep + JoinFields(tail[..k - 1], sep);
    }
  }

  /**
   * `split` drops nothing but separators: the input is the kept fields
   * joined with the separator, followed by some number of separators (or, when no
   * field is kept, only separators).
   */
  lemma RubySplitLosesOnlySeparators(s: string, sep: string)
    requires sep != []
    ensures RubySplit(s, sep) == [] ==> exists n: nat :: s == Repeat(sep, n)
    ensures RubySplit(s, sep) != [] ==>
      exists n: nat :: s == JoinFields(RubySplit(s, sep), sep) + Repeat(sep, n)
  {
    var fs := SplitFields(s, sep);
    var r := RubySplit(s, sep);
    JoinSplitFields(s, sep);
    if r == [] {
      JoinEmptyFields(fs, sep);
      assert s == Repeat(sep, |fs| - 1);
    } else {
      JoinWithEmptyTail(fs, |r|, sep);
      assert s == JoinFields(r, sep) + Repeat(sep, |fs| - |r|);
    }
  }

  /** The first field of a text that starts with a space is not empty. */
  lemma FirstFieldAfterSpace(s: string)
    requires s != [] && s[0] == ' '
    ensures SplitFields(s, "to")[0] != []
  {
    match Find(s, "to", 0)
    case None =>
    case Some(i) =>
      assert s[i..i + 2][0] == s[i];
  }

  /** " to " at `k`: the first "to" is either the one at `k + 1` or ends at or before `k`. */
  lemma FirstToBeforeSpacedTo(s: string, k: nat) returns (i: nat)
    requires OccursAt(s, k, " to ")
    ensures Find(s, "to", 0) == Some(i)
    ensures i == k + 1 || i + 2 <= k
    ensures s[k] == ' ' && s[k + 3] == ' '
  {
    var w := s[k..k + 4];
    assert w[0] == s[k] && w[1] == s[k + 1] && w[2] == s[k + 2] && w[3] == s[k + 3];
    assert OccursAt(s, k + 1, "to") by {
      assert s[k + 1..k + 3] == [s[k + 1], s[k + 2]];
    }
    i := Find(s, "to", 0).value;
    var v := s[i..i + 2];
    assert v[0] == s[i] && v[1] == s[i + 1];
  }

  /** A "to" followed by a space leaves a non-empty field after it. */
  lemma FieldAfterFirstTo(s: string, i: nat)
    requires Find(s, "to", 0) == Some(i) && i + 2 < |s| && s[i + 2] == ' '
    ensures |SplitFields(s, "to")| >= 2 && SplitFields(s, "to")[1] != []
  {
    var rest := s[i + 2..];
    SplitFieldsStep(s, "to", i);
    assert rest[0] == s[i + 2];
    FirstFieldAfterSpace(rest);
  }

  /** The fields after the first separator are the fields of the text after it. */
  lemma LaterFields(s: string, i: nat, j: nat)
    requires Find(s, "to", 0) == Some(i)
    requires 1 <= j < |SplitFields(s[i + 2..], "to")|
    ensures j + 1 < |SplitFields(s, "to")| && SplitFields(s, "to")[j + 1] == SplitFields(s[i + 2..], "to")[j]
  {
    SplitFieldsStep(s, "to", i);
  }

  /** Where " to " occurs, some field of `split("to")` after the first is non-empty. */
  lemma {:induction false} FieldAfterTo(s: string, k: nat) returns (j: nat)
    requires OccursAt(s, k, " to ")
    ensures 1 <= j < |SplitFields(s, "to")| && SplitFields(s, "to")[j] != []
    decreases |s|
  {
    var i := FirstToBeforeSpacedTo(s, k);
    if i == k + 1 {
      FieldAfterFirstTo(s, i);
      j := 1;
    } else {
      var rest := s[i + 2..];
      var k' := k - i - 2;
      assert OccursAt(rest, k', " to ") by {
        assert rest[k'..k' + 4] == s[k..k + 4];
      }
      var j' := FieldAfterTo(rest, k');
      LaterFields(s, i, j');
      j := j' + 1;
    }
  }

  /** An argument that contains " to " always splits on "to" into at least an origin and a destination. */
  lemma SplitAroundTo(s: string)
    requires Contains(s, " to ")
    ensures |RubySplit(s, "to")| >= 2
  {
    var j := FieldAfterTo(s, Find(s, " to ", 0).value);
  }

  /** Characters `strip` removes: ASCII whitespace and NUL. */
  predicate IsStripChar(c: char) {
    c == '\0' || IsSpace(c)
  }

  function StripStart(s: string): (r: string)
    ensures |r| <= |s| && r == s[|s| - |r|..]
    ensures forall i :: 0 <= i < |s| - |r| ==> IsStripChar(s[i])
    ensures r == [] || !IsStripChar(r[0])
  {
    if s != [] && IsStripChar(s[0]) then StripStart(s[1..]) else s
  }

  function StripEnd(s: string): (r: string)
    ensures |r| <= |s| && r == s[..|r|]
    ensures forall i :: |r| <= i < |s| ==> IsStripChar(s[i])
    ensures r == [] || !IsStripChar(r[|r| - 1])
  {
    if s != [] && IsStripChar(s[|s| - 1]) then
      var r := StripEnd(s[..|s| - 1]);
      assert s[..|s| - 1][..|r|] == s[..|r|];
      r
    else s
  }

  /** How many characters `strip` cuts from the front of `s`. */
  function StripOffset(s: string): nat {
    |s| - |StripStart(s)|
  }

  /** `strip`: the piece of `s` left once whitespace and NUL are cut from both ends. */
  function Strip(s: string): (r: string)
    ensures StripOffset(s) + |r| <= |s|
    ensures s[StripOffset(s)..StripOffset(s) + |r|] == r
    ensures forall i :: 0 <= i < StripOffset(s) ==> IsStripChar(s[i])
    ensures forall i :: StripOffset(s) + |r| <= i < |s| ==> IsStripChar(s[i])
    ensures r == [] || (!IsStripChar(r[0]) && !IsStripChar(r[|r| - 1]))
  {
    var t := StripStart(s);
    var r := StripEnd(t);
    var k := |s| - |t|;
    assert s[k..k + |r|] == t[..|r|];
    assert forall i :: k + |r| <= i < |s| ==> s[i] == t[i - k];
    r
  }

  predicate NoNewline(s: string) {
    forall i :: 0 <= i < |s| ==> s[i] != '\n'
  }

  /** The lines, each followed by a line feed. */
  function Unlines(ls: seq<string>): string {
    if ls == [] then [] else ls[0] + "\n" + Unlines(ls[1..])
  }

  /** The lines of a text: the pieces between line feeds, a final unterminated piece included. */
  function SplitLines(s: string): seq<string>
    decreases |s|
  {
    match Find(s, "\n", 0)
    case None => if s == [] then [] else [s]
    case Some(i) => [s[..i]] + SplitLines(s[i + 1..])
  }

  /** Lines without line feeds, written out and read back, are the same lines. */
  lemma {:induction false} SplitLinesOfUnlines(ls: seq<string>)
    requires forall k :: 0 <= k < |ls| ==> NoNewline(ls[k])
    ensures SplitLines(Unlines(ls)) == ls
    decreases |ls|
  {
    if ls != [] {
      var s := Unlines(ls);
      var l := ls[0];
      assert s == l + ("\n" + Unlines(ls[1..]));
      assert OccursAt(s, |l|, "\n") by {
        assert s[|l|..|l| + 1] == "\n";
      }
      forall j | 0 <= j < |l|
        ensures !OccursAt(s, j, "\n")
      {
        assert s[j..j + 1][0] == l[j];
      }
      assert Find(s, "\n", 0) == Some(|l|);
      assert s[..|l|] == l;
      assert s[|l| + 1..] == Unlines(ls[1..]);
      SplitLinesOfUnlines(ls[1..]);
    }
  }
}

=== FILE: workflow.dfy ===
/**
 * Properties of the two-step surge confirmation that span a `ride` and a
 * later `accept` by the same user.
 */
module Workflow {
  import opened Wrappers
  import opened Numerals
  import opened Api
  import opened Messages
  import opened Rides

  /** The estimate `ride` gets for a well-formed request; it raises when planning the trip raises. */
  function EstimateFor(ctx: Context, s: string): (r: Call<Estimate>)
    requires RideGuard(Some(s)).None?
    ensures r.Returned? ==> PlanTrip(ctx.services, s).Returned?
  {
    match PlanTrip(ctx.services, s)
    case Threw => Threw
    case Returned(trip) => ctx.services.estimate(trip.origin, trip.destination, trip.product)
  }

  /** A surge estimate `ride` recorded with its confirmation id, and the same user asking again within five minutes. */
  predicate SurgeRecorded(ctx: Context, later: Context, store: seq<RideRecord>, s: string) {
    && RideGuard(Some(s)).None?
    && EstimateFor(ctx, s).Returned?
    && !BlankId(EstimateFor(ctx, s).value.confirmationId)
    && NotAfter(store, ctx.now)
    && later.user == ctx.user
    && ctx.now <= later.now <= ctx.now + FreshFor
  }

  /** The record `ride` just added is the one a later `accept` by the same user works on. */
  lemma RideRecordIsLatest(ctx: Context, store: seq<RideRecord>, s: string)
    requires RideGuard(Some(s)).None? && EstimateFor(ctx, s).Returned?
    requires NotAfter(store, ctx.now)
    ensures var after := Ride(ctx, store, Some(s)).store;
      LatestFor(after, ctx.user) == Some(after[|store|])
  {
    var after := Ride(ctx, store, Some(s)).store;
    assert after == store + [after[|store|]];
    LatestAfterAppend(store, after[|store|]);
  }

  /**
   * Above 2.0, `ride` does not book but asks for `accept <multiplier>`; typing
   * back that multiplier within five minutes books the recorded trip with the
   * recorded confirmation id.
   */
  lemma EchoedMultiplierBooks(ctx: Context, later: Context, store: seq<RideRecord>, s: string)
    requires SurgeRecorded(ctx, later, store, s)
    requires EstimateFor(ctx, s).value.surge > 200
    ensures var first := Ride(ctx, store, Some(s));
      var est := EstimateFor(ctx, s).value;
      var trip := PlanTrip(ctx.services, s).value;
      && first.requests == []
      && first.reply == Text(SurgeAcceptWith(est.surge))
      && Accept(later, first.store, Some(RenderHundredths(est.surge))).requests
         == [BookRequest(trip.origin, trip.destination, trip.product, est.confirmationId)]
  {
    RideRecordIsLatest(ctx, store, s);
    RenderedHundredthsReadBack(EstimateFor(ctx, s).value.surge);
  }

  /**
   * At exactly 2.0, `ride` asks for a bare `accept` (its bound is "more than
   * 2"), but `accept` insists on the multiplier from 2.0 up, so following the
   * instruction only earns the retry message and books nothing.
   */
  lemma BareAcceptRefusedAtTwo(ctx: Context, later: Context, store: seq<RideRecord>, s: string)
    requires SurgeRecorded(ctx, later, store, s)
    requires EstimateFor(ctx, s).value.surge == 200
    ensures var first := Ride(ctx, store, Some(s));
      && first.reply == Text(SurgeAccept(200))
      && Accept(later, first.store, None) == Outcome(Text(RetryAccept(200)), first.store, [])
  {
    RideRecordIsLatest(ctx, store, s);
  }

  /** Between 1.0 and 2.0, a bare `accept` within five minutes books with the recorded confirmation id. */
  lemma BareAcceptBooksBelowTwo(ctx: Context, later: Context, store: seq<RideRecord>, s: string)
    requires SurgeRecorded(ctx, later, store, s)
    requires 100 < EstimateFor(ctx, s).value.surge < 200
    ensures var first := Ride(ctx, store, Some(s));
      var est := EstimateFor(ctx, s).value;
      var trip := PlanTrip(ctx.services, s).value;
      && first.requests == []
      && first.reply == Text(SurgeAccept(est.surge))
      && Accept(later, first.store, None).requests
         == [BookRequest(trip.origin, trip.destination, trip.product, est.confirmationId)]
  {
    RideRecordIsLatest(ctx, store, s);
  }

  /** More than five minutes later, `accept` estimates again instead of booking with the old confirmation id. */
  lemma LateAcceptReestimates(ctx: Context, later: Context, store: seq<RideRecord>, s: string, stated: Option<string>)
    requires RideGuard(Some(s)).None? && EstimateFor(ctx, s).Returned?
    requires NotAfter(store, ctx.now)
    requires later.user == ctx.user && later.now > ctx.now + FreshFor
    requires EstimateFor(ctx, s).value.surge < 200
    ensures var first := Ride(ctx, store, Some(s));
      var rec := first.store[|store|];
      && Accept(later, first.store, stated) == Ride(later, first.store, Some(RerunText(rec)))
      && forall k :: 0 <= k < |Accept(later, first.store, stated).requests| ==>
           Accept(later, first.store, stated).requests[k].confirmationId.None?
  {
    RideRecordIsLatest(ctx, store, s);
  }

  /** Below 2.0 the stated multiplier is never looked at. */
  lemma AcceptIgnoresStatementBelowTwo(ctx: Context, store: seq<RideRecord>, a: Option<string>, b: Option<string>)
    requires LatestFor(store, ctx.user).Some? && LatestFor(store, ctx.user).value.surge < StatedFrom
    ensures Accept(ctx, store, a) == Accept(ctx, store, b)
  {
  }
}

=== FILE: wrappers.dfy ===
/** An optional value (Ruby's nil). */
module Wrappers {

  /** Some value, or none (Ruby's `nil`). */
  datatype Option<+T> = None | Some(value: T)
}
